=== FILE: README.md ===
# vit, modelled in Dafny

vit is a local image viewer. Its command line points a root link at a directory. Its server walks that
directory into a tree of folders and images, and serves image bytes by identifier. Its browser client
shows the tree in a sidebar, shows the images of the selected folder, and enlarges one of them in a
modal with keyboard navigation.

This project models the decisions underneath that glue as immutable data and pure functions:

- **The server.** The image classifier, the recursive tree walk over an abstract filesystem snapshot,
  the identifier → path registry that every listing rebuilds, the image count, and the four-way
  decision of the image endpoint.
- **The client.** Folder lookup by identifier, the displayed images, the modal's index and guard, the
  keyboard handler, and the sidebar's expanded set and rendered rows.
- **Two small state machines.** The drop zone's highlight flag, together with the drag payload
  round trip, and the slideshow controls' visibility with their hide timer.
- **The command line.** Port selection, the `set-root` target and link, `add`'s source and
  destination, and `rm`.

Modules, one per file:

| module | file | what it holds |
|---|---|---|
| `Wrappers` | wrappers.dfy | `Option` |
| `Strings` | strings.dfy | ASCII lower-casing and decimal rendering of naturals |
| `Paths` | paths.dfy | `join`, `basename` and `extname` on '/'-separated strings |
| `ImageClassifier` | classifier.dfy | `IMAGE_EXTENSIONS` and `isImageFile` |
| `FileSystem` | filesystem.dfy | the filesystem snapshot a walk reads |
| `DirectoryItems` | directory_items.dfy | `DirectoryItem` trees, pre-order, `countImages` |
| `TreeBuilder` | tree_builder.dfy | `buildDirectoryTree` and its reference tree |
| `Environment` | environment.dfy | `cwd`, `HOME`, `NODE_ENV`, `PORT` and the root link |
| `Server` | server.dfy | the listing and image endpoints over an explicit registry state |
| `App` | app.dfy | the main view: selection, displayed images, modal, keys |
| `Sidebar` | sidebar.dfy | expanded folders, folder clicks, rendered rows |
| `Draggable` | draggable.dfy | `DraggableItem` payload and the `DropZone` flag and callback |
| `ModalControls` | modal_controls.dfy | the `useModalControls` hook as a transition system |
| `Cli` | cli.dfy | ports, `set-root`, `add`, `rm` |

How the model represents things:

- **Identifiers.** Random UUIDs become naturals from a counter threaded through the walk, so an
  identifier is fresh exactly when it is at least the counter.
- **The filesystem.** A finite tree whose nodes record what `statSync` and `readdirSync` report.
- **The registry.** The module-level map becomes a `map<Id, Path>` inside a server state value that is
  passed in and returned.
- **The disk.** What `existsSync` reports is a set of paths.
- **Failing system calls.** Whether a system call throws is a boolean parameter.
- **React.** React state is a record and every handler is a transition on it.

## Model

| member | source | states |
|---|---|---|
| Paths.Basename | src/server/index.ts:45 | the base name is the last component once trailing separators are ignored, and it never contains a separator |
| Paths.IsAbsolute | src/cli/index.ts:48-50 | a path is absolute when it starts with a separator; `Paths.JoinAbsolute` states how joining preserves this |
| Paths.Join | src/cli/index.ts:48-50 | the result is never empty, and two non-empty segments give the first, one separator and the second |
| Paths.JoinAbsolute | src/cli/index.ts:48-50 | joining onto a non-empty directory is absolute exactly when the directory is; onto an empty one, exactly when the second segment is |
| Paths.Extname | src/server/index.ts:192 | a non-empty extension starts with its only '.', and is a proper suffix of the base name, so a leading '.' alone gives no extension |
| Paths.ExtnameFromLastDot | src/server/index.ts:192 | the extension is the base name's suffix from its last '.' when that '.' is past the first character and the base name is not ".."; it is empty when there is no such '.' or the base name is ".." |
| Paths.BasenameOfJoin | src/server/index.ts:53 | the base name of `join(dir, entry)` is the entry's name, for every non-empty name without a separator |
| Paths.BasenameOfJoinedPath | src/cli/index.ts:48-50 | putting a directory in front of a path keeps that path's base name |
| Strings.DecimalInjective | src/client/draggable.tsx:22 | distinct naturals have distinct decimal strings, so a rendered identifier names one identifier |
| ImageClassifier.IsImageFile | src/server/index.ts:191-194 | a name without an extension is never an image; `ImageClassifier.ImageIff` and `ImageClassifier.ImageHasListedSuffix` state exactly which names are images |
| ImageClassifier.ImageHasListedSuffix | src/server/index.ts:191-194 | an image's extension is a proper suffix of its base name that folds to an allowed extension |
| ImageClassifier.ListedExtensionShape | src/server/index.ts:189 | every allowed extension is a '.' followed by at least three lower-case letters |
| ImageClassifier.ImageIff | src/server/index.ts:189-194 | a name is an image exactly when its case-folded base name is a non-empty stem followed by an allowed extension |
| ImageClassifier.ListedSuffixIsExtension | src/server/index.ts:192 | a suffix that folds to an allowed extension begins at the last '.' of the component, so it is what `extname` returns |
| ImageClassifier.CaseInsensitive | src/server/index.ts:192-193 | names equal after case folding are classified alike |
| ImageClassifier.StemWithExtensionIsImage | src/server/index.ts:189-194 | a non-empty stem followed by an allowed extension in any letter case is an image |
| ImageClassifier.NoDotNoImage | src/server/index.ts:191-193 | a base name without '.' is never an image |
| DirectoryItems.CountImages | src/server/index.ts:94-105 | specified by `DirectoryItems.CountImagesIsImageNodes`: the count is the number of image-typed nodes |
| DirectoryItems.CountImagesIsImageNodes | src/server/index.ts:94-105 | `countImages` equals the number of image-typed nodes of the tree |
| TreeBuilder.FolderName | src/server/index.ts:78 | a folder with an empty base name is called "root", and any other folder keeps its base name |
| TreeBuilder.BuildTree | src/server/index.ts:40-92 | the walk throws exactly when `stat` fails on the path or `readdirSync` fails on the directory; the node takes the next fresh identifier |
| TreeBuilder.BuildEntry | src/server/index.ts:52-73 | an entry that is kept consumes at least one fresh identifier |
| TreeBuilder.BuildEntries | src/server/index.ts:52-74 | the entry loop only moves the fresh-identifier supply forward; what it builds is stated by the shape and numbering lemmas |
| TreeBuilder.BuildTreeNumbering | src/server/index.ts:40-92 | the nodes of a built tree carry consecutive fresh identifiers in pre-order, the registry changes only at those identifiers, and exactly the image nodes are registered |
| TreeBuilder.BuildEntriesNumbering | src/server/index.ts:52-74 | the same for the children built by the entry loop |
| TreeBuilder.FolderIdUnregistered | src/server/index.ts:76-81 | the walk below a folder never registers the folder's own identifier |
| TreeBuilder.BuiltIdsDistinct | src/server/index.ts:46 | no identifier occurs twice in a built tree |
| TreeBuilder.BuildTreeShape | src/server/index.ts:40-92 | read through its registry, a built tree equals the reference tree: the sub-folders and image files of each directory, in entry order, under their names, each image resolving to its own path |
| TreeBuilder.BuildEntriesShape | src/server/index.ts:52-74 | the children are exactly the sub-folders and image files in entry order; an entry whose stat or walk fails is skipped and its later siblings are still processed |
| TreeBuilder.JoinedImageName | src/server/index.ts:59 | classifying an entry's name and classifying its joined path agree |
| TreeBuilder.BuildTreeServable | src/server/index.ts:59-63 | every path a directory walk registers passes the classifier |
| TreeBuilder.BuildEntriesServable | src/server/index.ts:52-74 | every path the entry loop registers passes the classifier |
| TreeBuilder.BuildTreeCount | src/server/index.ts:94-105 | the image count of a built tree is the number of image files the walk reaches |
| TreeBuilder.BuildEntriesCount | src/server/index.ts:52-74 | the children's image count is the number of image files reachable from the entries |
| Environment.HomeDir | src/cli/index.ts:144 | `HOME` when it is set and non-empty, and "~" when it is unset or empty |
| Environment.RootLink | src/cli/index.ts:165 | the link is ".vit-root" placed directly in the home directory: the home directory, a separator and ".vit-root", so its base name is ".vit-root" |
| Server.RootDir | src/server/index.ts:21-38 | the test-data directory outside production, and in production ".vit-root" directly in the home directory (`HOME`, or "~" when unset or empty) |
| Server.ListImages | src/server/index.ts:119-138 | a listing fails exactly when the root cannot be stat-ed or read, a failure still leaves the registry cleared, and a success reports the number of image files reached |
| Server.ListingForgetsOldIds | src/server/index.ts:122-125 | after any listing no identifier handed out before it is registered, and the state stays valid |
| Server.ListingRegistersImages | src/server/index.ts:119-131 | the listed tree has distinct identifiers, every image in it is registered, and no folder in it is |
| Server.ListedTreeShape | src/server/index.ts:125-130 | read through the new registry, the listed tree is the reference tree of the filesystem |
| Server.Status | src/server/index.ts:147-168 | 200 exactly when the file is served, 404 exactly for an unknown identifier or a file missing on disk, 400 exactly for a non-image |
| Server.ErrorMessage | src/server/index.ts:147-168 | an error message is present exactly when the status is not 200 |
| Server.ErrorMessagesDistinct | src/server/index.ts:147-168 | the three failures carry three different messages |
| Server.LookupImage | src/server/index.ts:141-172 | not found exactly when the identifier is unregistered or maps to "", missing on disk exactly when its path is absent, and then the identifier is evicted; not an image exactly when the path fails the classifier; otherwise the registered path is served, with the state unchanged |
| Server.EvictionIsPermanent | src/server/index.ts:154-160 | after an eviction the identifier is not found whatever the disk holds, and other identifiers answer as before |
| Server.StaleIdAfterRelist | src/server/index.ts:122-125 | after a new listing every identifier from before it is not found |
| Server.ImagePathNonEmpty | src/server/index.ts:147 | a path the classifier accepts is never the empty string |
| Server.ListedItemsResolve | src/server/index.ts:141-172 | right after listing a directory, a folder's identifier is not found; an image is served from its registered path when that path exists and is reported missing otherwise |
| Server.RootFileAsymmetry | src/server/index.ts:84-91 | a regular file that is not an image, used as the root, is listed as a one-image tree whose identifier the image endpoint then rejects as not an image |
| App.DirectImages | src/client/App.tsx:148-153 | the members are exactly the image-typed children of a folder; an image node has none |
| App.DirectImagesSplit | src/client/App.tsx:150 | filtering keeps the children's order: the filter of a concatenation is the concatenation of the filters |
| App.FindById | src/client/App.tsx:155-171 | a hit carries the target identifier and is a node of the tree, and nothing is found exactly when no node carries it |
| App.FindInChildren | src/client/App.tsx:163-168 | the same for the search of a child list |
| App.FirstMatchConcat | src/client/App.tsx:164-167 | a linear scan of a concatenation returns the first part's match when there is one |
| App.FindIsFirstMatch | src/client/App.tsx:155-171 | `findDirectoryById` returns the first node in pre-order with the identifier, or nothing |
| App.FindInChildrenIsFirstMatch | src/client/App.tsx:163-168 | the child loop returns the first match in the children's pre-order |
| App.FindOwnId | src/client/App.tsx:155-171 | in a tree without repeated identifiers, looking up a node's identifier finds that node |
| App.Display | src/client/App.tsx:227-234 | nothing is displayed without a tree or a selection, and only images are ever displayed |
| App.DisplayOfSelection | src/client/App.tsx:227-234 | a selection that matches no node displays nothing, and one that matches a node displays that node's direct images |
| App.ModalIndex | src/client/App.tsx:305 | the modal is mounted exactly when the index is set and addresses a displayed image |
| App.Next | src/client/App.tsx:199-206 | the index moves up by one exactly when it is set and below the last position, and nothing else changes |
| App.Prev | src/client/App.tsx:208-212 | the index moves down by one exactly when it is set and positive, and nothing else changes |
| App.Step | src/client/App.tsx:183-225 | only the toggle changes whether the sidebar is open, and it flips it; only the listing changes the tree, and it selects the root; only the listing and a folder click change the selection; an image click sets the modal's index to the clicked position; closing clears the index, so the modal is unmounted; the next and previous buttons do what `App.Next` and `App.Prev` state; toggling, the listing and a folder click leave the index alone. Key events are specified by `App.EscapeClosesModal`, `App.ArrowRightIsNext`, `App.ArrowLeftIsPrev`, `App.OtherKeysIgnored` and `App.KeysNeedModal` |
| App.Dispatch | src/client/App.tsx:58-66 | Escape closes; ArrowRight moves on only with `hasNext`; ArrowLeft moves back only with `hasPrev` |
| App.FetchShowsRootImages | src/client/App.tsx:219-220 | after the listing arrives the root is selected and its direct images are displayed |
| App.SelectedFolderShowsItsImages | src/client/App.tsx:187-189 | selecting a folder of the tree displays that folder's direct images |
| App.NextPrevRoundTrip | src/client/App.tsx:199-212 | previous after a successful next returns to the same state |
| App.PrevNextRoundTrip | src/client/App.tsx:199-212 | next after a successful previous returns to the same state |
| App.NavigationStep | src/client/App.tsx:199-212 | a navigation event keeps an open modal open and changes nothing but the index |
| App.NavigationStaysInRange | src/client/App.tsx:199-212 | from an open modal, any run of next/previous buttons and non-Escape keys keeps the index within the displayed images |
| App.EscapeClosesModal | src/client/App.tsx:59-60 | while the modal is open, Escape does what the close button does (src/client/App.tsx:195-197), and afterwards the modal is unmounted |
| App.ArrowRightIsNext | src/client/App.tsx:61-62 | while the modal is open, ArrowRight does what the next button does |
| App.ArrowLeftIsPrev | src/client/App.tsx:63-64 | while the modal is open, ArrowLeft does what the previous button does |
| App.OtherKeysIgnored | src/client/App.tsx:58-66 | any other key leaves the state unchanged |
| App.KeysNeedModal | src/client/App.tsx:305-315 | without the modal no key has an effect, since the modal registers the listener |
| Sidebar.ToggleFolder | src/client/sidebar.tsx:22-32 | the clicked identifier's membership flips and every other identifier keeps its membership |
| Sidebar.ToggleTwice | src/client/sidebar.tsx:22-32 | toggling twice restores the set |
| Sidebar.FolderClick | src/client/sidebar.tsx:34-38 | a folder click toggles the folder and selects it in the main view |
| Sidebar.RowFor | src/client/sidebar.tsx:46-47 | a row carries its node, its level and an indent of 16 × level, and an open icon exactly for an expanded folder |
| Sidebar.Render | src/client/sidebar.tsx:45-96 | a node's own row comes first, and every row is at least at the node's level, with indent 16 × its level |
| Sidebar.ChildrenShownIff | src/client/sidebar.tsx:70-74 | children are rendered exactly when the node is an expanded folder with at least one child, and the first child follows one level deeper |
| Sidebar.CollapsedChildrenHidden | src/client/sidebar.tsx:70 | nothing below a collapsed folder is visible |
| Sidebar.RenderIsVisiblePlacements | src/client/sidebar.tsx:45-96 | the rendered rows are exactly the nodes whose enclosing folders are all expanded, in pre-order, each at its depth |
| Sidebar.RenderAllIsVisiblePlacements | src/client/sidebar.tsx:72 | the same for a list of children |
| Sidebar.SidebarView | src/client/sidebar.tsx:105-120 | "No data" exactly when there is no tree or its root has no children; otherwise the root's name and identifier head the view, and the rows are the visible placements of the root's children starting at level 0, whatever the root's own expanded state |
| Sidebar.RootToggleInvisible | src/client/sidebar.tsx:108-110 | clicking the sidebar box toggles the root without changing any rendered row |
| Sidebar.ImageRowDragAsWritten | src/client/sidebar.tsx:82-86 | an image row's payload holds the image's identifier under "imageId" and its name under "imageName" |
| Sidebar.SidebarDropLosesImageId | src/client/sidebar.tsx:82-86 | that payload dropped on a sidebar folder reaches `onDrop` with an empty item identifier and an empty origin |
| Sidebar.ImageRowDrag | src/client/sidebar.tsx:82-86 | the corrected payload also holds the identifier under the key drop zones read |
| Sidebar.SidebarDropDeliversCall | src/client/sidebar.tsx:82-86 | with the corrected payload, a sidebar image dropped on a sidebar folder calls `onDrop` with the image's identifier, the folder's identifier and an empty origin |
| Sidebar.SidebarDropDeliversImage | src/client/sidebar.tsx:82-86 | with the corrected payload the folder's `onDrop` receives the dragged image's identifier and no other |
| Draggable.GetData | src/client/draggable.tsx:73-74 | a key that was never set reads as "" |
| Draggable.IdString | src/client/draggable.tsx:22 | a string identifier is written as itself, and a number as a non-empty string with '-' exactly for negatives; numbers are written in plain decimal, which is what JavaScript does for whole numbers below 10^21 in magnitude |
| Draggable.NumberStringInjective | src/client/draggable.tsx:22 | distinct numeric identifiers are written as distinct strings |
| Draggable.HandleDragStart | src/client/draggable.tsx:20-25 | the payload holds the identifier's string under "itemId" and the origin under "fromArea", other keys are kept, the effect is "move", and the callback gets the same identifier and origin exactly when present |
| Draggable.ZoneFlag | src/client/draggable.tsx:49-76 | entering sets the flag, dropping clears it, leaving clears it exactly when the mouse is outside the half-open box, and dragging over keeps it |
| Draggable.ZoneCall | src/client/draggable.tsx:68-76 | a drop calls `onDrop`, when there is one, with the payload's "itemId", the zone's own identifier and the payload's "fromArea" |
| Draggable.ZoneClass | src/client/draggable.tsx:85 | the class string is the zone's classes and a space, then the highlight classes when the flag is set, then the transition classes; without the flag nothing is inserted before the transition classes |
| Draggable.HighlightNotEndingInTail | src/client/draggable.tsx:85 | without the flag, no occurrence of the highlight classes can end inside the space and transition classes that follow the zone's own classes |
| Draggable.HighlightIffOver | src/client/draggable.tsx:85 | when the zone's own classes do not already contain the highlight classes, the class string contains them exactly when the flag is set |
| Draggable.ZoneRunIsLastDecision | src/client/draggable.tsx:42-76 | after any run of events the flag is what the last deciding event decided |
| Draggable.DragDropRoundTrip | src/client/draggable.tsx:20-76 | the payload a draggable item writes, dropped on a zone, reaches `onDrop` as the item's identifier string, the zone's identifier and the item's origin, and the highlight is off |
| Draggable.NumericIdRoundTrip | src/client/draggable.tsx:20-76 | a numeric identifier survives the round trip: the delivered string names the dragged number only |
| ModalControls.RunEffect | src/client/hooks/useModalControls.ts:8-36 | the effect shows the controls and listens to nothing with the slideshow off, and hides them and listens with it on |
| ModalControls.Cleanup | src/client/hooks/useModalControls.ts:30-35 | the cleanup removes the listener and cancels the timer the ref names |
| ModalControls.Mount | src/client/hooks/useModalControls.ts:5 | the first render shows the controls exactly when the slideshow is off, with no timer pending |
| ModalControls.MountValid | src/client/hooks/useModalControls.ts:4-14 | the first render satisfies the hook's invariant |
| ModalControls.Step | src/client/hooks/useModalControls.ts:8-36 | after unmounting nothing changes and nothing remounts; timer handles only grow, and the only timer an event can schedule is the fresh one. The hook's invariant is stated by `ModalControls.StepValid` |
| ModalControls.StepValid | src/client/hooks/useModalControls.ts:8-36 | every event keeps the invariant: at most the ref's timer is pending, the listener is registered exactly while the slideshow is on, and with the slideshow off the controls are shown |
| ModalControls.AtMostOneTimer | src/client/hooks/useModalControls.ts:16-25 | in a valid state at most one hide timer is pending |
| ModalControls.RunValid | src/client/hooks/useModalControls.ts:8-36 | after any run of events the state is valid and at most one timer is pending |
| ModalControls.SlideshowOffIsInert | src/client/hooks/useModalControls.ts:9-12 | with the slideshow off, mouse moves and timers change nothing and the controls stay shown |
| ModalControls.TurningOnHides | src/client/hooks/useModalControls.ts:14 | turning the slideshow on hides the controls and starts listening with no timer pending |
| ModalControls.MouseMoveReplacesTimer | src/client/hooks/useModalControls.ts:16-25 | a mouse move during the slideshow shows the controls and leaves only the fresh timer pending |
| ModalControls.TimerHides | src/client/hooks/useModalControls.ts:23-25 | the pending timer firing hides the controls, and a cleared timer firing changes nothing |
| ModalControls.TeardownCancels | src/client/hooks/useModalControls.ts:30-35 | teardown removes the listener and cancels every pending timer |
| ModalControls.SwitchingCancels | src/client/hooks/useModalControls.ts:30-35 | switching the slideshow cancels the pending timer and applies the new setting |
| ModalControls.MoveThenFire | src/client/hooks/useModalControls.ts:16-25 | a mouse move followed by its own timer firing leaves the controls hidden with nothing pending |
| Cli.DefaultPort | src/cli/index.ts:104-107 | 8080 exactly in production and 3000 otherwise |
| Cli.ResolvePort | src/cli/index.ts:114 | the option when truthy, else `PORT` when truthy, else the default; the result is always truthy |
| Cli.FalsyPortFallsThrough | src/cli/index.ts:114 | a port of 0, NaN or none, from both sources, falls through to the default |
| Cli.DataRootDir | src/cli/index.ts:163-174 | ".vit-root" directly in the home directory (`HOME`, or "~" when unset or empty) |
| Cli.SetRootTargetAsWritten | src/cli/index.ts:137-141 | "." targets the current directory, and any other name, absolute or not, is the current directory, a separator and the name |
| Cli.AbsoluteTargetMisplaced | src/cli/index.ts:137-141 | an absolute name is not the target as written: the current directory is put in front of it |
| Cli.Resolve | src/cli/index.ts:48-50 | an absolute argument is used as given, and any other one is appended to the current directory |
| Cli.SetRootTarget | src/cli/index.ts:137-141 | "." targets the current directory and an absolute name targets itself |
| Cli.SetRootTargetAgreesOnRelative | src/cli/index.ts:137-141 | the corrected target and the target as written agree exactly on relative names |
| Cli.Relink | src/cli/index.ts:144-150 | an existing link is unlinked first; success needs that unlink and the symlink to succeed; the last action links the given target at the root link; nothing else is touched |
| Cli.SetRoot | src/cli/index.ts:128-161 | `set-root` as written: an empty name exits 1 with no action; otherwise the root link is replaced by a link to the current directory joined with the name, with success exactly when the unlink, if a link exists, and the symlink succeed |
| Cli.SetRootCorrected | src/cli/index.ts:128-161 | the same command with the corrected target: an absolute name is linked as given |
| Cli.SetRootCommandsAgreeOnRelative | src/cli/index.ts:137-141 | from a non-empty current directory, `set-root` as written and corrected behave identically on relative names, and differ on every absolute name that succeeds |
| Cli.LinkLocationsAgree | src/cli/index.ts:144 | `set-root`, `getDataRootDir` and the production server use the same link path |
| Cli.Add | src/cli/index.ts:41-81 | a missing source exits 1 before any copy; an existing destination only sets the warning; success is exactly one copy from the resolved source to the destination |
| Cli.AddDestination | src/cli/index.ts:60 | the destination keeps the argument's base name |
| Cli.AddKeepsBaseName | src/cli/index.ts:60 | the copy lands directly in the root directory under the source's base name, wherever the source was |
| Cli.Remove | src/cli/index.ts:83-98 | `rm` performs no action and exits 0 |

## Left out

- HTTP: Express routing, static files, `res.sendFile`, JSON bodies and the 500 handlers. Only the status and message decision is modelled.
- The real `fs` calls are left out. The filesystem is a finite snapshot and `existsSync` is a set of paths. Symlinks are followed by the snapshot, so a symlink cycle, which makes the real walk run forever, cannot be expressed.
- `uuidv4` is replaced by a counter. An identifier drawn for a walk that then throws is not consumed, because a discarded UUID cannot be observed.
- Concurrent listings racing on the shared map are left out: every request is one atomic transition.
- `process.exit`, console output, commander parsing and `parseInt`, and the string-to-number conversion of `PORT`. Numbers arrive already converted, as whole numbers or NaN.
- Paths.Join: `path.join`'s normalisation of "..", "." and repeated separators is not modelled; joining is segment concatenation.
- TreeBuilder.BuildTree: registers the joined path where the source registers `path.resolve` of it, because the working directory is not part of the walk.
- TreeBuilder.BuildEntry: its own contract states only that a kept entry consumes identifiers. What it keeps and registers is stated by `TreeBuilder.BuildEntriesShape` and `TreeBuilder.BuildEntriesNumbering`.
- Strings.Lower: folds ASCII letters only, where `toLowerCase` folds all of Unicode.
- React rendering, JSX, styling, icons, `NavigationButton` and `useSlideshow` are left out. So is the `fetch` promise chain: only its success, the `Fetched` event, is modelled.
- ModalControls: `CONTROL_HIDE_DELAY` and real time are not modelled; a timer may fire at any moment after it is scheduled. A render that does not change `isSlideshow` does not re-run the effect and is not an event.
- Draggable.IdString: numeric identifiers are unbounded whole numbers written in plain decimal. JavaScript writes numbers of magnitude 10^21 or more in exponent notation ("1e+21"), and whole numbers beyond 2^53 are not distinct JavaScript numbers, so this contract and `Draggable.NumberStringInjective` match the source only for magnitudes below 2^53.
- Draggable.ZoneFlag: mouse and rectangle coordinates are integers, where the browser reports fractional pixels.
- Draggable.HandleDragStart: `dropEffect` is not modelled.
- Cli.Relink: a dangling link at the root-link path is not told apart from no link. `existsSync` follows links and reports a dangling one as absent (src/cli/index.ts:146), so the unlink is skipped and `symlinkSync` then fails (line 150). The model reaches that outcome only through the `symlinkFails` flag.
- The sidebar's own `handleDrop` only logs, so it has no model beyond the call it receives.

## Findings

| source | as written | input that shows it | evidently intended | confidence | as-written member | corrected member |
|---|---|---|---|---|---|---|
| src/cli/index.ts:137-141 | every name but "." is joined onto the current directory, an absolute one included | `vit set-root /path/to/project`, the help text's own example at src/cli/index.ts:24, run from /home/u, links to /home/u/path/to/project | an absolute name is the target itself, as `add` already treats absolute arguments (src/cli/index.ts:48-50) | not executed | Cli.AbsoluteTargetMisplaced | Cli.SetRootCommandsAgreeOnRelative |
| src/client/sidebar.tsx:82-86 | an image row writes its identifier under "imageId", while every drop zone reads "itemId" and "fromArea" (src/client/draggable.tsx:73-74) | drag an image row of the sidebar onto a sidebar folder: `onDrop` receives "" for the item and "" for the origin | the row writes the identifier under "itemId", as `DraggableItem` does | not executed | Sidebar.SidebarDropLosesImageId | Sidebar.SidebarDropDeliversImage |

`Cli.SetRoot` is the command as written; `Cli.SetRootCorrected` is the command with the corrected target,
`Cli.SetRootTarget`. The sidebar's corrected payload is
`Sidebar.ImageRowDrag`; `Sidebar.ImageRowDragAsWritten` is the payload as written.

=== FILE: app.dfy ===
/** The browsing logic of the client's main view: which folder is selected,
    which images are shown for it, and the enlarged-image modal with its
    next/previous navigation and keyboard handler. React state is an explicit
    `Model` value and every handler is a transition on it. */
module App {
  import opened Wrappers
  import opened DirectoryItems

  // ---------------------------------------------------------------------
  // Reading the tree.

  /** `getDirectImages`: the image children of a folder, in order; nothing
      for an image node. */
  function DirectImages(d: Item): (r: seq<Item>)
    ensures forall x :: x in r <==> d.Folder? && x in d.children && x.Image?
    ensures d.Folder? ==> |r| <= |d.children|
    ensures d.Image? ==> r == []
  {
    if d.Folder? then
      ImageNodesMembers(d.children);
      ImageNodes(d.children)
    else []
  }

  /** The members of `ImageNodes(s)` are the image nodes of `s`. */
  lemma {:induction false} ImageNodesMembers(s: seq<Item>)
    ensures forall x :: x in ImageNodes(s) <==> x in s && x.Image?
  {
    if s != [] {
      ImageNodesMembers(s[1..]);
      assert s == [s[0]] + s[1..];
    }
  }

  /** The direct images of a folder are its image children with the folder
      children taken out, kept in order: filtering the children list in two
      pieces and joining gives the same list. */
  lemma DirectImagesSplit(id: Id, name: string, a: seq<Item>, b: seq<Item>)
    ensures DirectImages(Folder(id, name, a + b)) ==
            DirectImages(Folder(id, name, a)) + DirectImages(Folder(id, name, b))
  {
    ImageNodesConcat(a, b);
  }

  /** `findDirectoryById`: the node itself if it carries the identifier,
      otherwise the first hit among its children, searched in order. */
  function FindById(d: Item, target: Id): (r: Option<Item>)
    ensures r.Some? ==> r.value.id == target && r.value in PreOrder(d)
    ensures r.None? <==> forall x :: x in PreOrder(d) ==> x.id != target
    decreases d, 1
  {
    if d.id == target then Some(d)
    else if d.Folder? then FindInChildren(d.children, target)
    else None
  }

  function FindInChildren(ts: seq<Item>, target: Id): (r: Option<Item>)
    ensures r.Some? ==> r.value.id == target && r.value in PreOrderAll(ts)
    ensures r.None? <==> forall x :: x in PreOrderAll(ts) ==> x.id != target
    decreases ts, 0
  {
    if ts == [] then None
    else
      match FindById(ts[0], target)
      case Some(x) => Some(x)
      case None => FindInChildren(ts[1..], target)
  }

  // ---------------------------------------------------------------------
  // Reference: the first match of a linear scan.

  /** The position of the first node with identifier `t`, or |s| if none. */
  function FirstIndexWithId(s: seq<Item>, t: Id): (i: nat)
    ensures i <= |s|
    ensures forall j :: 0 <= j < i ==> s[j].id != t
    ensures i < |s| ==> s[i].id == t
  {
    if s == [] then 0
    else if s[0].id == t then 0
    else 1 + FirstIndexWithId(s[1..], t)
  }

  function FirstMatch(s: seq<Item>, t: Id): Option<Item>
  {
    var i := FirstIndexWithId(s, t);
    if i < |s| then Some(s[i]) else None
  }

  /** The first-match position is determined by its two defining facts. */
  lemma FirstIndexUnique(s: seq<Item>, t: Id, i: nat)
    requires i <= |s|
    requires forall j :: 0 <= j < i ==> s[j].id != t
    requires i < |s| ==> s[i].id == t
    ensures FirstIndexWithId(s, t) == i
  {
  }

  /** A scan of a concatenation finds the first part's match if it has one. */
  lemma FirstMatchConcat(a: seq<Item>, b: seq<Item>, t: Id)
    ensures FirstMatch(a + b, t) ==
            (if FirstMatch(a, t).Some? then FirstMatch(a, t) else FirstMatch(b, t))
  {
    var i := FirstIndexWithId(a, t);
    if i < |a| {
      FirstIndexUnique(a + b, t, i);
    } else {
      var k := FirstIndexWithId(b, t);
      forall j | 0 <= j < |a| + k
        ensures (a + b)[j].id != t
      {
        if j >= |a| {
          assert (a + b)[j] == b[j - |a|];
        }
      }
      FirstIndexUnique(a + b, t, |a| + k);
    }
  }

  /** `findDirectoryById` returns the first node, in pre-order, carrying the
      identifier, and nothing iff no node carries it. */
  lemma {:induction false} FindIsFirstMatch(d: Item, t: Id)
    ensures FindById(d, t) == FirstMatch(PreOrder(d), t)
    decreases d, 1
  {
    var rest := if d.Folder? then PreOrderAll(d.children) else [];
    assert PreOrder(d) == [d] + rest;
    FirstMatchConcat([d], rest, t);
    if d.id == t {
      FirstIndexUnique([d], t, 0);
    } else {
      FirstIndexUnique([d], t, 1);
      if d.Folder? {
        FindInChildrenIsFirstMatch(d.children, t);
      } else {
        FirstIndexUnique([], t, 0);
      }
    }
  }

  lemma {:induction false} FindInChildrenIsFirstMatch(ts: seq<Item>, t: Id)
    ensures FindInChildren(ts, t) == FirstMatch(PreOrderAll(ts), t)
    decreases ts, 0
  {
    if ts == [] {
      FirstIndexUnique([], t, 0);
    } else {
      FindIsFirstMatch(ts[0], t);
      FindInChildrenIsFirstMatch(ts[1..], t);
      FirstMatchConcat(PreOrder(ts[0]), PreOrderAll(ts[1..]), t);
    }
  }

  /** Two members of a sequence without repeated identifiers that share an
      identifier are the same node. */
  lemma SameIdSameNode(s: seq<Item>, x: Item, y: Item)
    requires forall i, j :: 0 <= i < j < |s| ==> Ids(s)[i] != Ids(s)[j]
    requires x in s && y in s && x.id == y.id
    ensures x == y
  {
    var i :| 0 <= i < |s| && s[i] == x;
    var j :| 0 <= j < |s| && s[j] == y;
    assert Ids(s)[i] == Ids(s)[j];
  }

  /** In a tree without repeated identifiers, looking a node's identifier up
      finds that node. */
  lemma FindOwnId(d: Item, x: Item)
    requires DistinctIds(d) && x in PreOrder(d)
    ensures FindById(d, x.id) == Some(x)
  {
    var r := FindById(d, x.id);
    SameIdSameNode(PreOrder(d), x, r.value);
  }

  // ---------------------------------------------------------------------
  // The view state.

  /** `directory`, `selectedDirId` and `enlargedImageIndex` of the main
      view, and whether the sidebar is open. */
  datatype Model = Model(
    sidebarOpen: bool,
    directory: Option<Item>,
    selected: Option<Id>,
    enlarged: Option<int>)

  /** First render: sidebar open, nothing loaded, nothing selected. */
  const Start: Model := Model(true, None, None, None)

  /** `displayImages`: the direct images of the selected folder, or nothing
      when there is no tree, no selection or no node with that identifier. */
  function Display(m: Model): (r: seq<Item>)
    ensures m.directory.None? || m.selected.None? ==> r == []
    ensures forall x :: x in r ==> x.Image?
  {
    if m.directory.None? || m.selected.None? then []
    else
      match FindById(m.directory.value, m.selected.value)
      case None => []
      case Some(f) => DirectImages(f)
  }

  /** A selection that names no node of the tree displays nothing; one that
      names a node displays that node's direct images. */
  lemma DisplayOfSelection(m: Model)
    requires m.directory.Some? && m.selected.Some?
    ensures (forall x :: x in PreOrder(m.directory.value) ==> x.id != m.selected.value) ==>
      Display(m) == []
    ensures DistinctIds(m.directory.value) ==>
      forall x :: x in PreOrder(m.directory.value) && x.id == m.selected.value ==>
        Display(m) == DirectImages(x)
  {
    forall x | DistinctIds(m.directory.value) && x in PreOrder(m.directory.value)
               && x.id == m.selected.value
      ensures Display(m) == DirectImages(x)
    {
      FindOwnId(m.directory.value, x);
    }
  }

  /** The modal guard: the modal is mounted exactly when the index is set
      and addresses an element of the displayed images. */
  function ModalIndex(m: Model): (r: Option<nat>)
    ensures r.Some? <==> m.enlarged.Some? && 0 <= m.enlarged.value < |Display(m)|
    ensures r.Some? ==> m.enlarged == Some(r.value as int)
  {
    match m.enlarged
    case Some(i) => if 0 <= i < |Display(m)| then Some(i as nat) else None
    case None => None
  }

  /** `hasNext` and `hasPrev` as the modal receives them. */
  predicate HasNext(m: Model, i: int) { i < |Display(m)| - 1 }
  predicate HasPrev(i: int) { i > 0 }

  /** `handleNextImage`. */
  function Next(m: Model): (r: Model)
    ensures r.sidebarOpen == m.sidebarOpen && r.directory == m.directory
    ensures r.selected == m.selected
    ensures m.enlarged.Some? && HasNext(m, m.enlarged.value) ==>
      r.enlarged == Some(m.enlarged.value + 1)
    ensures !(m.enlarged.Some? && HasNext(m, m.enlarged.value)) ==> r == m
  {
    match m.enlarged
    case Some(i) => if i < |Display(m)| - 1 then m.(enlarged := Some(i + 1)) else m
    case None => m
  }

  /** `handlePrevImage`. */
  function Prev(m: Model): (r: Model)
    ensures r.sidebarOpen == m.sidebarOpen && r.directory == m.directory
    ensures r.selected == m.selected
    ensures m.enlarged.Some? && HasPrev(m.enlarged.value) ==>
      r.enlarged == Some(m.enlarged.value - 1)
    ensures !(m.enlarged.Some? && HasPrev(m.enlarged.value)) ==> r == m
  {
    match m.enlarged
    case Some(i) => if i > 0 then m.(enlarged := Some(i - 1)) else m
    case None => m
  }

  /** What the modal's keydown handler does with a key. */
  datatype KeyAction = Close | GoNext | GoPrev | Ignore

  function Dispatch(key: string, hasNext: bool, hasPrev: bool): (a: KeyAction)
    ensures a == Close <==> key == "Escape"
    ensures a == GoNext <==> key == "ArrowRight" && hasNext
    ensures a == GoPrev <==> key == "ArrowLeft" && hasPrev
  {
    if key == "Escape" then Close
    else if key == "ArrowRight" && hasNext then GoNext
    else if key == "ArrowLeft" && hasPrev then GoPrev
    else Ignore
  }

  datatype Event =
    | ToggleSidebar
    | Fetched(root: Item)          // the listing response arrived
    | SelectDirectory(id: Id)      // a folder row or the sidebar box was clicked
    | ClickImage(index: int)       // a thumbnail was clicked
    | CloseModal                   // the close button or the backdrop
    | NextImage                    // the next button
    | PrevImage                    // the previous button
    | KeyDown(key: string)

  /** One event. A key press reaches the handler only while the modal is
      mounted, since the listener is registered by the modal. */
  function Step(m: Model, e: Event): (r: Model)
    ensures r.sidebarOpen == (if e.ToggleSidebar? then !m.sidebarOpen else m.sidebarOpen)
    ensures !e.Fetched? ==> r.directory == m.directory
    ensures !e.Fetched? && !e.SelectDirectory? ==> r.selected == m.selected
    ensures e.Fetched? ==> r.directory == Some(e.root) && r.selected == Some(e.root.id)
    ensures e.ClickImage? ==> r.enlarged == Some(e.index)
    ensures e.CloseModal? ==> r.enlarged.None? && ModalIndex(r).None?
    ensures e.NextImage? ==> r == Next(m)
    ensures e.PrevImage? ==> r == Prev(m)
    ensures e.ToggleSidebar? || e.Fetched? || e.SelectDirectory? ==> r.enlarged == m.enlarged
  {
    match e
    case ToggleSidebar => m.(sidebarOpen := !m.sidebarOpen)
    case Fetched(root) => m.(directory := Some(root), selected := Some(root.id))
    case SelectDirectory(id) => m.(selected := Some(id))
    case ClickImage(i) => m.(enlarged := Some(i))
    case CloseModal => m.(enlarged := None)
    case NextImage => Next(m)
    case PrevImage => Prev(m)
    case KeyDown(key) =>
      match ModalIndex(m)
      case None => m
      case Some(i) =>
        match Dispatch(key, HasNext(m, i), HasPrev(i))
        case Close => m.(enlarged := None)
        case GoNext => Next(m)
        case GoPrev => Prev(m)
        case Ignore => m
  }

  function Run(m: Model, es: seq<Event>): Model
    decreases |es|
  {
    if es == [] then m else Run(Step(m, es[0]), es[1..])
  }

  // ---------------------------------------------------------------------
  // Properties of the view.

  /** After the listing arrives the root is selected and its own images are
      displayed. */
  lemma FetchShowsRootImages(m: Model, root: Item)
    ensures var m' := Step(m, Fetched(root));
      m'.selected == Some(root.id) && Display(m') == DirectImages(root)
  {
  }

  /** Selecting a folder of a tree without repeated identifiers displays
      that folder's own images. */
  lemma SelectedFolderShowsItsImages(m: Model, x: Item)
    requires m.directory.Some? && DistinctIds(m.directory.value)
    requires x in PreOrder(m.directory.value)
    ensures Display(Step(m, SelectDirectory(x.id))) == DirectImages(x)
  {
    FindOwnId(m.directory.value, x);
  }

  /** Next then previous, or previous then next, returns to the start
      whenever the first step moved. */
  lemma NextPrevRoundTrip(m: Model)
    requires m.enlarged.Some? && 0 <= m.enlarged.value && HasNext(m, m.enlarged.value)
    ensures Prev(Next(m)) == m
  {
  }

  lemma PrevNextRoundTrip(m: Model)
    requires m.enlarged.Some? && HasPrev(m.enlarged.value)
    requires m.enlarged.value < |Display(m)|
    ensures Next(Prev(m)) == m
  {
  }

  /** A navigation event: a button or a key other than Escape. */
  predicate Navigation(e: Event)
  {
    e.NextImage? || e.PrevImage? || (e.KeyDown? && e.key != "Escape")
  }

  /** Navigation changes nothing but the index, and a modal that is open
      stays open: the index stays within the displayed images. */
  lemma NavigationStep(m: Model, e: Event)
    requires ModalIndex(m).Some? && Navigation(e)
    ensures var m' := Step(m, e);
      && ModalIndex(m').Some?
      && m'.directory == m.directory && m'.selected == m.selected
      && m'.sidebarOpen == m.sidebarOpen
  {
  }

  lemma {:induction false} NavigationStaysInRange(m: Model, es: seq<Event>)
    requires ModalIndex(m).Some?
    requires forall k :: 0 <= k < |es| ==> Navigation(es[k])
    ensures var m' := Run(m, es);
      && ModalIndex(m').Some?
      && Display(m') == Display(m)
      && m'.directory == m.directory && m'.selected == m.selected
    decreases |es|
  {
    if es != [] {
      NavigationStep(m, es[0]);
      NavigationStaysInRange(Step(m, es[0]), es[1..]);
    }
  }

  /** While the modal is open, Escape does what the close button does and
      the arrow keys do what the arrow buttons do. */
  lemma EscapeClosesModal(m: Model)
    requires ModalIndex(m).Some?
    ensures Step(m, KeyDown("Escape")) == Step(m, CloseModal)
    ensures ModalIndex(Step(m, KeyDown("Escape"))).None?
  {
  }

  lemma ArrowRightIsNext(m: Model)
    requires ModalIndex(m).Some?
    ensures Step(m, KeyDown("ArrowRight")) == Step(m, NextImage)
  {
  }

  lemma ArrowLeftIsPrev(m: Model)
    requires ModalIndex(m).Some?
    ensures Step(m, KeyDown("ArrowLeft")) == Step(m, PrevImage)
  {
  }

  /** Any other key does nothing, modal open or not. */
  lemma OtherKeysIgnored(m: Model, key: string)
    requires key != "Escape" && key != "ArrowRight" && key != "ArrowLeft"
    ensures Step(m, KeyDown(key)) == m
  {
  }

  /** Without the modal no key has any effect. */
  lemma KeysNeedModal(m: Model, key: string)
    requires ModalIndex(m).None?
    ensures Step(m, KeyDown(key)) == m
  {
  }
}

=== FILE: classifier.dfy ===
/** The image classifier shared by the tree builder and the byte-serving
    endpoint: a name is an image when its lower-cased extension is on a
    fixed allow-list. No content sniffing. */
module ImageClassifier {
  import opened Strings
  import opened Paths

  const ImageExtensions: seq<string> := [".jpg", ".jpeg", ".png", ".gif", ".webp"]

  /** `isImageFile`. */
  predicate IsImageFile(name: Path)
    ensures Extname(name) == "" ==> !IsImageFile(name)
  {
    Lower(Extname(name)) in ImageExtensions
  }

  /** Every listed extension is a '.' followed by lower-case letters. */
  lemma ListedExtensionShape(e: string)
    requires e in ImageExtensions
    ensures 4 <= |e| && e[0] == '.'
    ensures forall j :: 1 <= j < |e| ==> 'a' <= e[j] <= 'z'
  {
  }

  /** The extension of an image name is a proper suffix of its last
      component whose case-folded form is listed. */
  lemma ImageHasListedSuffix(n: Path)
    requires IsImageFile(n)
    ensures var b := Basename(n); var k := |b| - |Extname(n)|;
      0 < k < |b| && Lower(b)[k..] in ImageExtensions
  {
    var b, x := Basename(n), Extname(n);
    var k := |b| - |x|;
    assert Lower(b)[k..] == Lower(x) by {
      assert b[k..|b|] == x;
      LowerSlice(b, k, |b|);
      assert Lower(b)[k..] == Lower(b)[k..|b|];
    }
  }

  /** A suffix that folds to a listed extension starts at the last '.' of
      its component. */
  lemma ListedSuffixIsExtension(b: string, k: nat)
    requires 0 < k < |b|
    requires Lower(b)[k..] in ImageExtensions
    ensures LastIndexOf(b, '.') == k
    ensures 4 < |b|
  {
    var e := Lower(b)[k..];
    ListedExtensionShape(e);
    assert e[0] == LowerChar(b[k]);
    LowerKeepsPunctuation(b[k], '.');
    forall i | k < i < |b|
      ensures b[i] != '.'
    {
      assert e[i - k] == LowerChar(b[i]);
    }
  }

  /** A name whose case-folded last component ends, after a non-empty
      stem, in a listed extension is an image. */
  lemma ListedSuffixMakesImage(n: Path, k: nat)
    requires 0 < k < |Basename(n)|
    requires Lower(Basename(n))[k..] in ImageExtensions
    ensures IsImageFile(n)
  {
    var b := Basename(n);
    ListedSuffixIsExtension(b, k);
    assert b != "..";
    assert Extname(n) == b[k..];
    LowerSlice(b, k, |b|);
    assert b[k..|b|] == b[k..];
    assert Lower(b)[k..] == Lower(b)[k..|b|];
  }

  /** A name is an image exactly when its case-folded last component is a
      non-empty stem followed by a listed extension. */
  lemma ImageIff(n: Path)
    ensures IsImageFile(n) <==>
      exists k :: 0 < k < |Basename(n)| && Lower(Basename(n))[k..] in ImageExtensions
  {
    if IsImageFile(n) {
      ImageHasListedSuffix(n);
    }
    forall k | 0 < k < |Basename(n)| && Lower(Basename(n))[k..] in ImageExtensions
      ensures IsImageFile(n)
    {
      ListedSuffixMakesImage(n, k);
    }
  }

  /** Names that agree after case folding have last components that agree
      after case folding. */
  lemma FoldedBasename(a: Path, b: Path)
    requires Lower(a) == Lower(b)
    ensures Lower(Basename(a)) == Lower(Basename(b))
  {
    forall i | 0 <= i < |a|
      ensures a[i] == '/' <==> b[i] == '/'
    {
      assert LowerChar(a[i]) == LowerChar(b[i]);
      LowerKeepsPunctuation(a[i], '/');
      LowerKeepsPunctuation(b[i], '/');
    }
    SameSeparators(a, b);
    LowerSlice(a, BaseStart(a), TrimmedLength(a));
    LowerSlice(b, BaseStart(b), TrimmedLength(b));
  }

  /** The check is case-insensitive: names that agree after case folding
      are classified alike (so "A.PNG" and "a.png" both are images). */
  lemma CaseInsensitive(a: Path, b: Path)
    requires Lower(a) == Lower(b)
    ensures IsImageFile(a) == IsImageFile(b)
  {
    FoldedBasename(a, b);
    ImageIff(a);
    ImageIff(b);
  }

  /** Appending a listed extension, in any letter case, to a non-empty
      separator-free stem yields an image name. */
  lemma StemWithExtensionIsImage(stem: string, ext: string)
    requires stem != "" && '/' !in stem
    requires Lower(ext) in ImageExtensions
    ensures IsImageFile(stem + ext)
  {
    var n := stem + ext;
    ExtensionHasNoSeparator(ext);
    assert '/' !in n by {
      forall i | 0 <= i < |n|
        ensures n[i] != '/'
      {
        if i >= |stem| {
          assert n[i] == ext[i - |stem|];
        }
      }
    }
    BasenameOfJoin("", n);
    assert Join("", n) == n;
    LowerSlice(n, |stem|, |n|);
    assert n[|stem|..|n|] == ext;
    assert Lower(n)[|stem|..] == Lower(n)[|stem|..|n|];
    ListedSuffixMakesImage(n, |stem|);
  }

  lemma ExtensionHasNoSeparator(ext: string)
    requires Lower(ext) in ImageExtensions
    ensures '/' !in ext
  {
    ListedExtensionShape(Lower(ext));
    forall i | 0 <= i < |ext|
      ensures ext[i] != '/'
    {
      LowerKeepsPunctuation(ext[i], '/');
    }
  }


  /** A name whose last component has no '.' is never an image. */
  lemma NoDotNoImage(n: Path)
    requires '.' !in Basename(n)
    ensures !IsImageFile(n)
  {
    assert LastIndexOf(Basename(n), '.') == -1;
  }
}

=== FILE: cli.dfy ===
/** The command line's decisions: the server port, and the filesystem
    actions of `set-root`, `add` and `rm` together with the exit code.
    The filesystem is the set of paths `existsSync` reports as present;
    `fails` parameters say whether a system call throws. */
module Cli {
  import opened Wrappers
  import opened Paths
  import opened Environment
  import Server

  const DefaultDevPort: int := 3000
  const DefaultProdPort: int := 8080

  /** `getDefaultPort`. */
  function DefaultPort(env: Env): (p: int)
    ensures p == DefaultProdPort <==> IsProduction(env)
    ensures p == DefaultDevPort <==> !IsProduction(env)
  {
    if IsProduction(env) then DefaultProdPort else DefaultDevPort
  }

  /** `options.port || Number(process.env.PORT) || getDefaultPort()`:
      `option` is the parsed `--port` value, absent when not given. */
  function ResolvePort(option: Option<JsNumber>, env: Env): (p: JsNumber)
    ensures Truthy(p)
    ensures option.Some? && Truthy(option.value) ==> p == option.value
    ensures !(option.Some? && Truthy(option.value)) && Truthy(env.port) ==> p == env.port
    ensures !(option.Some? && Truthy(option.value)) && !Truthy(env.port) ==>
      p == Num(DefaultPort(env))
  {
    if option.Some? && Truthy(option.value) then option.value
    else if Truthy(env.port) then env.port
    else Num(DefaultPort(env))
  }

  /** A port of 0 or NaN, from either source, falls through to the next. */
  lemma FalsyPortFallsThrough(env: Env)
    requires !Truthy(env.port)
    ensures ResolvePort(Some(Num(0)), env) == Num(DefaultPort(env))
    ensures ResolvePort(Some(NaN), env) == Num(DefaultPort(env))
    ensures ResolvePort(None, env) == Num(DefaultPort(env))
  {
  }

  // ---------------------------------------------------------------------
  // Filesystem actions.

  datatype FsAction =
    | Unlink(path: Path)
    | Symlink(target: Path, link: Path)
    | CopyFile(source: Path, dest: Path)

  /** The actions a command performed, in order, and its exit code. */
  datatype Outcome = Outcome(actions: seq<FsAction>, exitCode: int, warned: bool)

  /** `getDataRootDir`: the root link's path. */
  function DataRootDir(env: Env): (p: Path)
    ensures p == HomeDir(env) + "/" + RootLinkName
    ensures Basename(p) == RootLinkName
  {
    RootLink(env)
  }

  /** The `set-root` target as written: `join(cwd, dirName)` for every name
      but ".", an absolute name included. */
  function SetRootTargetAsWritten(cwd: Path, dirName: string): (p: Path)
    requires dirName != ""
    ensures dirName == "." ==> p == cwd
    ensures dirName != "." && cwd != "" ==> p == cwd + "/" + dirName
    ensures dirName != "." && cwd == "" ==> p == dirName
  {
    if dirName == "." then cwd else Join(cwd, dirName)
  }

  /** An absolute directory name does not name the link's target: the
      current directory is put in front of it. */
  lemma AbsoluteTargetMisplaced(cwd: Path, dirName: string)
    requires cwd != "" && IsAbsolute(dirName)
    ensures SetRootTargetAsWritten(cwd, dirName) != dirName
    ensures SetRootTargetAsWritten(cwd, dirName)[..|cwd|] == cwd
  {
  }

  /** The path a command-line argument names: an absolute one as given, any
      other relative to the current directory. Used by `add` for its
      source. */
  function Resolve(cwd: Path, name: string): (p: Path)
    ensures IsAbsolute(name) ==> p == name
    ensures !IsAbsolute(name) && name != "" && cwd != "" ==> p == cwd + "/" + name
  {
    if IsAbsolute(name) then name else Join(cwd, name)
  }

  /** The `set-root` target with absolute names honoured, as the command's
      help text promises: "." is the current directory and any other name
      is resolved the way `add` resolves its argument. */
  function SetRootTarget(cwd: Path, dirName: string): (p: Path)
    requires dirName != ""
    ensures dirName == "." ==> p == cwd
    ensures dirName != "." ==> p == Resolve(cwd, dirName)
    ensures IsAbsolute(dirName) ==> p == dirName
  {
    if dirName == "." then cwd else Resolve(cwd, dirName)
  }

  /** The two agree exactly on relative names. */
  lemma SetRootTargetAgreesOnRelative(cwd: Path, dirName: string)
    requires dirName != "" && cwd != ""
    ensures SetRootTarget(cwd, dirName) == SetRootTargetAsWritten(cwd, dirName)
            <==> !IsAbsolute(dirName)
  {
    if IsAbsolute(dirName) {
      AbsoluteTargetMisplaced(cwd, dirName);
    }
  }

  /** The tail of `createSymLink` once the target is known: an existing
      link is removed and the new one made. A throwing `unlinkSync` or
      `symlinkSync` stops the command with exit 1. */
  function Relink(env: Env, target: Path, onDisk: set<Path>,
                  unlinkFails: bool, symlinkFails: bool): (o: Outcome)
    ensures o.exitCode == 0 <==> !symlinkFails && !(RootLink(env) in onDisk && unlinkFails)
    ensures o.exitCode == 0 ==> |o.actions| == if RootLink(env) in onDisk then 2 else 1
    ensures o.exitCode == 0 ==> o.actions[|o.actions| - 1] == Symlink(target, DataRootDir(env))
    ensures forall a :: a in o.actions ==> !a.CopyFile? && (a.Unlink? ==> a.path == RootLink(env))
    ensures forall a :: a in o.actions && a.Symlink? ==> a.target == target
  {
    var link := RootLink(env);
    if link in onDisk && unlinkFails then Outcome([], 1, false)
    else
      var removed := if link in onDisk then [Unlink(link)] else [];
      if symlinkFails then Outcome(removed, 1, false)
      else Outcome(removed + [Symlink(target, link)], 0, false)
  }

  /** `set-root <dir-name>` (`createSymLink`) as written: an empty name exits
      1 with no action; otherwise the link points at the target as written,
      the current directory joined with the name. */
  function SetRoot(env: Env, dirName: string, onDisk: set<Path>,
                   unlinkFails: bool, symlinkFails: bool): (o: Outcome)
    ensures dirName == "" ==> o == Outcome([], 1, false)
    ensures o.exitCode == 0 <==>
      dirName != "" && !symlinkFails && !(RootLink(env) in onDisk && unlinkFails)
    ensures o.exitCode == 0 ==> |o.actions| == if RootLink(env) in onDisk then 2 else 1
    ensures o.exitCode == 0 ==>
      o.actions[|o.actions| - 1] == Symlink(SetRootTargetAsWritten(env.cwd, dirName), DataRootDir(env))
    ensures forall a :: a in o.actions ==> !a.CopyFile? && (a.Unlink? ==> a.path == RootLink(env))
  {
    if dirName == "" then Outcome([], 1, false)
    else Relink(env, SetRootTargetAsWritten(env.cwd, dirName), onDisk, unlinkFails, symlinkFails)
  }

  /** `set-root` with the corrected target: an absolute name is linked as
      given. */
  function SetRootCorrected(env: Env, dirName: string, onDisk: set<Path>,
                            unlinkFails: bool, symlinkFails: bool): (o: Outcome)
    ensures dirName == "" ==> o == Outcome([], 1, false)
    ensures o.exitCode == 0 <==>
      dirName != "" && !symlinkFails && !(RootLink(env) in onDisk && unlinkFails)
    ensures o.exitCode == 0 ==> |o.actions| == if RootLink(env) in onDisk then 2 else 1
    ensures o.exitCode == 0 ==>
      o.actions[|o.actions| - 1] == Symlink(SetRootTarget(env.cwd, dirName), DataRootDir(env))
    ensures o.exitCode == 0 && IsAbsolute(dirName) ==>
      o.actions[|o.actions| - 1] == Symlink(dirName, DataRootDir(env))
  {
    if dirName == "" then Outcome([], 1, false)
    else Relink(env, SetRootTarget(env.cwd, dirName), onDisk, unlinkFails, symlinkFails)
  }

  /** The command as written and the corrected one do the same thing for a
      relative name, and link different targets for an absolute one. */
  lemma SetRootCommandsAgreeOnRelative(env: Env, dirName: string, onDisk: set<Path>,
                                       unlinkFails: bool, symlinkFails: bool)
    requires dirName != "" && env.cwd != ""
    ensures !IsAbsolute(dirName) ==>
      SetRootCorrected(env, dirName, onDisk, unlinkFails, symlinkFails)
      == SetRoot(env, dirName, onDisk, unlinkFails, symlinkFails)
    ensures IsAbsolute(dirName) && SetRoot(env, dirName, onDisk, unlinkFails, symlinkFails).exitCode == 0 ==>
      SetRootCorrected(env, dirName, onDisk, unlinkFails, symlinkFails)
      != SetRoot(env, dirName, onDisk, unlinkFails, symlinkFails)
  {
    SetRootTargetAgreesOnRelative(env.cwd, dirName);
  }

  /** `set-root`, `getDataRootDir` and the production server agree on where
      the root link is. */
  lemma LinkLocationsAgree(env: Env, dirName: string, onDisk: set<Path>, testDataDir: Path)
    requires IsProduction(env)
    requires SetRoot(env, dirName, onDisk, false, false).exitCode == 0
    ensures var o := SetRoot(env, dirName, onDisk, false, false);
      && o.actions[|o.actions| - 1].link == DataRootDir(env)
      && Server.RootDir(env, testDataDir) == DataRootDir(env)
  {
  }

  /** `add <file-name>`: a missing source exits 1 before any copy; otherwise
      the file is copied into the root directory under its own base name,
      with a warning, and overwriting, if that name is taken. */
  function Add(env: Env, fileName: string, onDisk: set<Path>, copyFails: bool): (o: Outcome)
    ensures Resolve(env.cwd, fileName) !in onDisk ==> o == Outcome([], 1, false)
    ensures Resolve(env.cwd, fileName) in onDisk ==>
      o.warned == (AddDestination(env, fileName) in onDisk)
    ensures o.exitCode == 0 <==> Resolve(env.cwd, fileName) in onDisk && !copyFails
    ensures o.exitCode == 0 ==>
      o.actions == [CopyFile(Resolve(env.cwd, fileName), AddDestination(env, fileName))]
    ensures o.exitCode != 0 ==> o.actions == []
  {
    var source := Resolve(env.cwd, fileName);
    if source !in onDisk then Outcome([], 1, false)
    else
      var dest := AddDestination(env, fileName);
      var warned := dest in onDisk;
      if copyFails then Outcome([], 1, warned)
      else Outcome([CopyFile(source, dest)], 0, warned)
  }

  /** `join(getDataRootDir(), basename(fileName))`. */
  function AddDestination(env: Env, fileName: string): (p: Path)
    ensures Basename(fileName) != "" ==> Basename(p) == Basename(fileName)
  {
    var base := Basename(fileName);
    if base != "" then BasenameOfJoin(DataRootDir(env), base); Join(DataRootDir(env), base)
    else Join(DataRootDir(env), base)
  }

  /** The copy lands directly in the root directory, under the source's
      base name, wherever the source was. */
  lemma AddKeepsBaseName(env: Env, fileName: string, onDisk: set<Path>)
    requires Basename(fileName) != ""
    requires Add(env, fileName, onDisk, false).exitCode == 0
    ensures var c := Add(env, fileName, onDisk, false).actions[0];
      && Basename(c.dest) == Basename(c.source)
      && c.dest == Join(DataRootDir(env), Basename(fileName))
  {
    BasenameOfJoinedPath(env.cwd, fileName);
  }

  /** `rm <file-name>`: nothing happens and the command succeeds. */
  function Remove(fileName: string): (o: Outcome)
    ensures o.actions == [] && o.exitCode == 0 && !o.warned
  {
    Outcome([], 0, false)
  }
}

=== FILE: directory_items.dfy ===
/** `DirectoryItem`, the node type of the browsing tree the server builds
    and the client renders. A folder always carries its (possibly empty)
    list of children and an image never does, which is how the server
    builds them. Identifiers are naturals drawn from a fresh-id supply in
    place of random UUIDs; `IdText` is their string form. */
module DirectoryItems {
  import opened Strings

  type Id = nat

  datatype Item =
    | Folder(id: Id, name: string, children: seq<Item>)
    | Image(id: Id, name: string)

  function IdText(id: Id): (s: string)
    ensures s != ""
  {
    Decimal(id)
  }

  /** All nodes of a tree, each before its descendants, siblings in order. */
  function PreOrder(t: Item): (r: seq<Item>)
    ensures 1 <= |r| && r[0] == t
  {
    [t] + (if t.Folder? then PreOrderAll(t.children) else [])
  }

  function PreOrderAll(ts: seq<Item>): seq<Item>
  {
    if ts == [] then [] else PreOrder(ts[0]) + PreOrderAll(ts[1..])
  }

  function Ids(s: seq<Item>): (r: seq<Id>)
    ensures |r| == |s|
    ensures forall i :: 0 <= i < |s| ==> r[i] == s[i].id
  {
    seq(|s|, i requires 0 <= i < |s| => s[i].id)
  }

  /** No identifier occurs twice in the tree. */
  predicate DistinctIds(t: Item)
  {
    var ids := Ids(PreOrder(t));
    forall i, j :: 0 <= i < j < |ids| ==> ids[i] != ids[j]
  }

  /** The image nodes of a node sequence, in order. */
  function ImageNodes(s: seq<Item>): (r: seq<Item>)
    ensures |r| <= |s|
  {
    if s == [] then []
    else (if s[0].Image? then [s[0]] else []) + ImageNodes(s[1..])
  }

  /** lo, lo + 1, ..., hi - 1 */
  function Interval(lo: nat, hi: nat): (r: seq<nat>)
    requires lo <= hi
    ensures |r| == hi - lo
    ensures forall i :: 0 <= i < |r| ==> r[i] == lo + i
  {
    seq(hi - lo, i requires 0 <= i < hi - lo => lo + i)
  }

  lemma IntervalConcat(a: nat, b: nat, c: nat)
    requires a <= b <= c
    ensures Interval(a, b) + Interval(b, c) == Interval(a, c)
  {
  }

  lemma IdsConcat(a: seq<Item>, b: seq<Item>)
    ensures Ids(a + b) == Ids(a) + Ids(b)
  {
  }

  lemma {:induction false} ImageNodesConcat(a: seq<Item>, b: seq<Item>)
    ensures ImageNodes(a + b) == ImageNodes(a) + ImageNodes(b)
  {
    if a == [] {
      assert a + b == b;
    } else {
      assert (a + b)[0] == a[0];
      assert (a + b)[1..] == a[1..] + b;
      ImageNodesConcat(a[1..], b);
    }
  }

  lemma PreOrderAllCons(t: Item, ts: seq<Item>)
    ensures PreOrderAll([t] + ts) == PreOrder(t) + PreOrderAll(ts)
  {
    assert ([t] + ts)[1..] == ts;
  }

  /** A node whose id lies in a numbered range: where it sits in that range. */
  lemma IdInInterval(s: seq<Item>, lo: nat, hi: nat, x: Item)
    requires lo <= hi && Ids(s) == Interval(lo, hi)
    requires x in s
    ensures lo <= x.id < hi
  {
    var i :| 0 <= i < |s| && s[i] == x;
    assert Ids(s)[i] == x.id;
  }

  /** `countImages`: one for an image node plus the counts of a node's
      children. */
  function CountImages(t: Item): nat
  {
    (if t.Image? then 1 else 0) + (if t.Folder? then CountAll(t.children) else 0)
  }

  function CountAll(ts: seq<Item>): nat
  {
    if ts == [] then 0 else CountImages(ts[0]) + CountAll(ts[1..])
  }

  lemma CountAllCons(t: Item, ts: seq<Item>)
    ensures CountAll([t] + ts) == CountImages(t) + CountAll(ts)
  {
    assert ([t] + ts)[0] == t;
    assert ([t] + ts)[1..] == ts;
  }

  /** The count is the number of image-typed nodes in the tree. */
  lemma {:induction false} CountImagesIsImageNodes(t: Item)
    ensures CountImages(t) == |ImageNodes(PreOrder(t))|
    decreases t, 1
  {
    var rest := if t.Folder? then PreOrderAll(t.children) else [];
    assert PreOrder(t) == [t] + rest;
    ImageNodesConcat([t], rest);
    assert ImageNodes([t]) == (if t.Image? then [t] else []) by {
      assert [t][1..] == [];
    }
    if t.Folder? {
      CountAllIsImageNodes(t.children);
    }
  }

  lemma {:induction false} CountAllIsImageNodes(ts: seq<Item>)
    ensures CountAll(ts) == |ImageNodes(PreOrderAll(ts))|
    decreases ts, 0
  {
    if ts != [] {
      CountImagesIsImageNodes(ts[0]);
      CountAllIsImageNodes(ts[1..]);
      ImageNodesConcat(PreOrder(ts[0]), PreOrderAll(ts[1..]));
    }
  }
}

=== FILE: draggable.dfy ===
/** Drag and drop between thumbnails and sidebar folders: what a draggable
    item writes into the drag payload, and the drop zone's highlight flag
    with the callback it makes on a drop. Mouse coordinates are whole
    numbers. */
module Draggable {
  import opened Wrappers
  import opened Strings

  /** The `dataTransfer` payload: string keys to string values. */
  type DataTransfer = map<string, string>

  /** `getData`: a key that was never set reads as the empty string. */
  function GetData(dt: DataTransfer, key: string): (v: string)
    ensures key in dt ==> v == dt[key]
    ensures key !in dt ==> v == ""
  {
    if key in dt then dt[key] else ""
  }

  /** The payload keys `DraggableItem` writes and `DropZone` reads. */
  const ItemIdKey: string := "itemId"
  const FromAreaKey: string := "fromArea"

  /** `id: string | number`; numbers are whole here. */
  datatype DragId = Text(s: string) | Number(n: int)

  /** `id.toString()`. */
  function IdString(id: DragId): (r: string)
    ensures id.Text? ==> r == id.s
    ensures id.Number? ==> r != "" && (r[0] == '-' <==> id.n < 0)
  {
    match id
    case Text(s) => s
    case Number(n) => if n < 0 then "-" + Decimal(-n) else Decimal(n)
  }

  /** Distinct numbers have distinct string forms. */
  lemma NumberStringInjective(a: int, b: int)
    requires IdString(Number(a)) == IdString(Number(b))
    ensures a == b
  {
    var s := IdString(Number(a));
    if a < 0 {
      assert s[1..] == Decimal(-a) == Decimal(-b);
      DecimalInjective(-a, -b);
    } else {
      DecimalInjective(a, b);
    }
  }

  /** What a drag start produces: the payload, the allowed effect and the
      optional `onDragStart` callback's arguments. */
  datatype DragStart = DragStart(data: DataTransfer, effectAllowed: string,
                                 callback: Option<(DragId, string)>)

  /** `DraggableItem.handleDragStart`. */
  function HandleDragStart(dt: DataTransfer, id: DragId, fromArea: string,
                           hasCallback: bool): (r: DragStart)
    ensures GetData(r.data, ItemIdKey) == IdString(id)
    ensures GetData(r.data, FromAreaKey) == fromArea
    ensures forall k :: k in dt && k != ItemIdKey && k != FromAreaKey ==>
      k in r.data && r.data[k] == dt[k]
    ensures r.effectAllowed == "move"
    ensures r.callback.Some? <==> hasCallback
    ensures r.callback.Some? ==> r.callback.value == (id, fromArea)
  {
    var data := dt[ItemIdKey := IdString(id)][FromAreaKey := fromArea];
    DragStart(data, "move", if hasCallback then Some((id, fromArea)) else None)
  }

  // ---------------------------------------------------------------------
  // The drop zone.

  /** `getBoundingClientRect()`. */
  datatype Rect = Rect(left: int, top: int, right: int, bottom: int)

  /** The mouse is inside the half-open box [left, right) x [top, bottom). */
  predicate Inside(x: int, y: int, r: Rect)
  {
    r.left <= x < r.right && r.top <= y < r.bottom
  }

  datatype ZoneEvent =
    | DragOver
    | DragEnter
    | DragLeave(x: int, y: int, rect: Rect)
    | Drop(data: DataTransfer)

  /** The arguments of `onDrop(itemId, areaId, fromArea)`. */
  datatype DropCall = DropCall(itemId: string, toArea: string, fromArea: string)

  /** The flag after one event: entering sets it, a drop clears it, leaving
      clears it only when the mouse really is outside the box (a leave
      fired on moving into a child element keeps it). */
  function ZoneFlag(over: bool, e: ZoneEvent): (r: bool)
    ensures e.DragEnter? ==> r
    ensures e.Drop? ==> !r
    ensures e.DragLeave? ==> (r <==> over && Inside(e.x, e.y, e.rect))
    ensures e.DragOver? ==> r == over
  {
    match e
    case DragOver => over
    case DragEnter => true
    case DragLeave(x, y, rect) => if Inside(x, y, rect) then over else false
    case Drop(_) => false
  }

  /** The callback a drop makes, if the zone has one. */
  function ZoneCall(areaId: string, hasOnDrop: bool, e: ZoneEvent): (r: Option<DropCall>)
    ensures r.Some? <==> e.Drop? && hasOnDrop
    ensures r.Some? ==> r.value == DropCall(GetData(e.data, ItemIdKey), areaId,
                                            GetData(e.data, FromAreaKey))
  {
    if e.Drop? && hasOnDrop then
      Some(DropCall(GetData(e.data, ItemIdKey), areaId, GetData(e.data, FromAreaKey)))
    else None
  }

  /** The zone's class string; `over` adds the highlight classes. */
  const Highlight: string := "bg-blue-500 bg-opacity-30"
  const ZoneTail: string := " transition-colors duration-100"

  function ZoneClass(className: string, over: bool): (r: string)
    ensures over ==> |r| == |className| + 1 + |Highlight| + |ZoneTail|
    ensures over ==> r[..|className| + 1] == className + " "
    ensures over ==> r[|className| + 1..|className| + 1 + |Highlight|] == Highlight
    ensures over ==> r[|className| + 1 + |Highlight|..] == ZoneTail
    ensures !over ==> r == className + " " + ZoneTail
  {
    className + " " + (if over then Highlight else "") + ZoneTail
  }

  /** `t` occurs in `s` starting at position `i`. */
  predicate OccursAt(s: string, t: string, i: int)
  {
    0 <= i && i + |t| <= |s| && s[i..i + |t|] == t
  }

  /** `t` occurs in `s`. */
  predicate Contains(s: string, t: string)
  {
    exists i :: 0 <= i <= |s| && OccursAt(s, t, i)
  }

  /** An occurrence of the highlight cannot end inside what follows the
      zone's own classes when the flag is off: the highlight ends in "30",
      that text has no '3', and its first character is a space. */
  lemma HighlightNotEndingInTail(c: string, i: int)
    requires 0 <= i && |c| < i + |Highlight| <= |c| + 1 + |ZoneTail|
    ensures (c + " " + ZoneTail)[i..i + |Highlight|] != Highlight
  {
    var r := c + " " + ZoneTail;
    var gap := " " + ZoneTail;
    var p := i + |Highlight| - 1;
    assert r == c + gap;
    assert '3' !in gap;
    if p == |c| {
      assert r[p] == gap[0] == ' ';
      assert r[i..i + |Highlight|][|Highlight| - 1] == r[p];
    } else {
      assert r[p - 1] == gap[p - 1 - |c|];
      assert r[i..i + |Highlight|][|Highlight| - 2] == r[p - 1];
    }
  }

  /** The highlight shows in the class string exactly when the flag is set,
      provided the zone's own classes do not already contain it. */
  lemma HighlightIffOver(className: string, over: bool)
    requires !Contains(className, Highlight)
    ensures Contains(ZoneClass(className, over), Highlight) <==> over
  {
    var r := ZoneClass(className, over);
    var n := |Highlight|;
    if over {
      assert OccursAt(r, Highlight, |className| + 1);
    } else if Contains(r, Highlight) {
      var i :| 0 <= i <= |r| && OccursAt(r, Highlight, i);
      assert n == 25 && i + n <= |r| && r[i..i + n] == Highlight;
      if i + n <= |className| {
        assert className[i..i + n] == r[i..i + n];
        assert OccursAt(className, Highlight, i);
      } else {
        HighlightNotEndingInTail(className, i);
      }
    }
  }

  /** The flag after a run of events, processed in order. */
  function ZoneRun(over: bool, es: seq<ZoneEvent>): bool
    decreases |es|
  {
    if es == [] then over else ZoneRun(ZoneFlag(over, es[0]), es[1..])
  }

  /** The decision an event makes about the flag, if it makes one. */
  function Decision(e: ZoneEvent): Option<bool>
  {
    match e
    case DragOver => None
    case DragEnter => Some(true)
    case DragLeave(x, y, rect) => if Inside(x, y, rect) then None else Some(false)
    case Drop(_) => Some(false)
  }

  /** Reference: the flag is what the last deciding event decided, or the
      initial value when no event decided anything. */
  function LastDecision(over: bool, es: seq<ZoneEvent>): bool
    decreases |es|
  {
    if es == [] then over
    else match Decision(es[|es| - 1])
      case Some(b) => b
      case None => LastDecision(over, es[..|es| - 1])
  }

  lemma {:induction false} ZoneRunSnoc(over: bool, es: seq<ZoneEvent>, e: ZoneEvent)
    ensures ZoneRun(over, es + [e]) == ZoneFlag(ZoneRun(over, es), e)
    decreases |es|
  {
    if es != [] {
      assert (es + [e])[1..] == es[1..] + [e];
      ZoneRunSnoc(ZoneFlag(over, es[0]), es[1..], e);
    } else {
      assert ([e])[1..] == [];
    }
  }

  /** The highlight shown after any run of events is the last decision. */
  lemma {:induction false} ZoneRunIsLastDecision(over: bool, es: seq<ZoneEvent>)
    ensures ZoneRun(over, es) == LastDecision(over, es)
    decreases |es|
  {
    if es != [] {
      var init, e := es[..|es| - 1], es[|es| - 1];
      assert es == init + [e];
      ZoneRunSnoc(over, init, e);
      ZoneRunIsLastDecision(over, init);
    }
  }

  /** The round trip: the payload a draggable item writes, dropped on a
      zone, reaches `onDrop` as the item's id string, the zone's own id and
      the area the item came from; the highlight is off afterwards. */
  lemma DragDropRoundTrip(dt: DataTransfer, id: DragId, fromArea: string,
                          hasCallback: bool, over: bool, areaId: string)
    ensures var data := HandleDragStart(dt, id, fromArea, hasCallback).data;
      && ZoneCall(areaId, true, Drop(data)) == Some(DropCall(IdString(id), areaId, fromArea))
      && !ZoneFlag(over, Drop(data))
  {
  }

  /** A numeric id survives the round trip: the delivered string names the
      dragged number and no other. */
  lemma NumericIdRoundTrip(dt: DataTransfer, n: int, m: int, fromArea: string, areaId: string)
    requires ZoneCall(areaId, true, Drop(HandleDragStart(dt, Number(n), fromArea, false).data))
             == Some(DropCall(IdString(Number(m)), areaId, fromArea))
    ensures n == m
  {
    NumberStringInjective(n, m);
  }
}

=== FILE: environment.dfy ===
/** The process environment as the server and the command line read it,
    and the one durable piece of configuration: the root link in the
    user's home directory. */
module Environment {
  import opened Wrappers
  import opened Paths

  /** A JavaScript number as the program can obtain one from `parseInt` or
      `Number(...)`: a whole number or NaN. */
  datatype JsNumber = NaN | Num(value: int)

  /** JavaScript truthiness of a number: neither 0 nor NaN. */
  predicate Truthy(n: JsNumber)
  {
    n.Num? && n.value != 0
  }

  /** `cwd` is `process.cwd()`; `home`, `nodeEnv` are `HOME`, `NODE_ENV`
      (absent when unset); `port` is `Number(process.env.PORT)`, the
      string-to-number conversion itself being left to the caller. */
  datatype Env = Env(cwd: Path, home: Option<string>, nodeEnv: Option<string>, port: JsNumber)

  predicate IsProduction(env: Env)
  {
    env.nodeEnv == Some("production")
  }

  /** `process.env.HOME || "~"`: an unset or empty HOME falls back to "~". */
  function HomeDir(env: Env): (h: string)
    ensures h != ""
    ensures env.home.Some? && env.home.value != "" ==> h == env.home.value
    ensures env.home.None? || env.home.value == "" ==> h == "~"
  {
    if env.home.Some? && env.home.value != "" then env.home.value else "~"
  }

  const RootLinkName: string := ".vit-root"

  /** The fixed location of the root link: ".vit-root" in the home directory. */
  function RootLink(env: Env): (p: Path)
    ensures p == HomeDir(env) + "/" + RootLinkName
    ensures Basename(p) == RootLinkName
  {
    BasenameOfJoin(HomeDir(env), RootLinkName);
    Join(HomeDir(env), RootLinkName)
  }
}

=== FILE: filesystem.dfy ===
/** An abstract, finite snapshot of the filesystem below one path, standing
    in for `fs.statSync` and `fs.readdirSync`. Each node records what those
    calls report for its path; the snapshot does not change during a walk. */
module FileSystem {

  datatype Node =
    | Directory(entries: seq<Entry>)  // `readdirSync` succeeds; entries in enumeration order
    | RegularFile                     // `isFile()` holds
    | Special                         // `stat` succeeds but reports neither a directory nor a file
    | Unlistable                      // `stat` reports a directory but `readdirSync` throws
    | Unstattable                     // `stat` throws

  datatype Entry = Entry(name: string, node: Node)

  /** Names as `readdirSync` returns them: non-empty and without separators. */
  predicate WellNamed(n: Node)
  {
    match n
    case Directory(es) => WellNamedEntries(es)
    case _ => true
  }

  predicate WellNamedEntries(es: seq<Entry>)
  {
    es == [] ||
    (es[0].name != "" && '/' !in es[0].name && WellNamed(es[0].node) && WellNamedEntries(es[1..]))
  }
}

=== FILE: modal_controls.dfy ===
/** `useModalControls`: whether the modal's controls are shown. With the
    slideshow off they are always shown; with it on they are hidden, a mouse
    move shows them and (re)starts a hide timer, and the timer hides them.
    The hook's effect, its cleanup, the mousemove listener and the timers
    are explicit parts of the state; timer handles are naturals. */
module ModalControls {
  import opened Wrappers

  /** `mounted`: the hook's component is on screen. `slideshow`: the
      `isSlideshow` argument the effect last ran with. `listening`: the
      mousemove listener is registered. `timerRef`: `timeoutRef.current`,
      which the cleanup does not reset. `pending`: hide timers scheduled and
      not yet fired or cleared. `nextTimer`: the next fresh timer handle. */
  datatype Controls = Controls(
    mounted: bool,
    slideshow: bool,
    show: bool,
    listening: bool,
    timerRef: Option<nat>,
    pending: set<nat>,
    nextTimer: nat)

  datatype ControlEvent =
    | SetSlideshow(on: bool)   // a render with this `isSlideshow`
    | MouseMove
    | TimerFire(handle: nat)   // a scheduled callback runs
    | Teardown                 // the component unmounts

  /** The effect body for `isSlideshow == on`. */
  function RunEffect(c: Controls, on: bool): (r: Controls)
    ensures r.show == !on && r.listening == on && r.slideshow == on
    ensures r.timerRef == c.timerRef && r.pending == c.pending
  {
    if !on then c.(slideshow := false, show := true, listening := false)
    else c.(slideshow := true, show := false, listening := true)
  }

  /** The effect cleanup: remove the listener and clear the timer the ref
      names. */
  function Cleanup(c: Controls): (r: Controls)
    ensures !r.listening
    ensures r.timerRef.Some? ==> r.timerRef.value !in r.pending
    ensures r.pending <= c.pending
    ensures r.show == c.show && r.timerRef == c.timerRef
  {
    c.(listening := false,
       pending := if c.timerRef.Some? then c.pending - {c.timerRef.value} else c.pending)
  }

  /** The first render and its effect; `useState(!isSlideshow)` agrees with
      what the effect then sets. */
  function Mount(on: bool): (r: Controls)
    ensures r.show == !on && r.listening == on && r.pending == {}
  {
    RunEffect(Controls(true, on, !on, false, None, {}, 1), on)
  }

  /** One event. Nothing happens after unmounting, an unmounted component
      never remounts, handles only grow, and the only timer an event can add
      is the fresh one. */
  function Step(c: Controls, e: ControlEvent): (r: Controls)
    ensures !c.mounted ==> r == c
    ensures r.mounted ==> c.mounted
    ensures c.nextTimer <= r.nextTimer
    ensures r.pending <= c.pending + {c.nextTimer}
  {
    if !c.mounted then c
    else
      match e
      case SetSlideshow(on) =>
        if on == c.slideshow then c else RunEffect(Cleanup(c), on)
      case MouseMove =>
        if !c.listening then c
        else
          var t := c.nextTimer;
          var cleared := if c.timerRef.Some? then c.pending - {c.timerRef.value} else c.pending;
          c.(show := true, timerRef := Some(t), pending := cleared + {t}, nextTimer := t + 1)
      case TimerFire(h) =>
        if h in c.pending then c.(show := false, pending := c.pending - {h}) else c
      case Teardown =>
        Cleanup(c).(mounted := false)
  }

  /** At most the timer the ref names is pending; handles are never reused;
      while mounted the listener is registered exactly when the slideshow is
      on; without the listener no timer is pending; with the slideshow off
      the controls are shown. */
  predicate Valid(c: Controls)
  {
    && (c.timerRef.None? ==> c.pending == {})
    && (c.timerRef.Some? ==> c.pending <= {c.timerRef.value} && c.timerRef.value < c.nextTimer)
    && (c.mounted ==> c.listening == c.slideshow)
    && (!c.mounted ==> !c.listening)
    && (!c.listening ==> c.pending == {})
    && (c.mounted && !c.slideshow ==> c.show)
  }

  lemma MountValid(on: bool)
    ensures Valid(Mount(on))
  {
  }

  /** Every event keeps the state valid. */
  lemma StepValid(c: Controls, e: ControlEvent)
    requires Valid(c)
    ensures Valid(Step(c, e))
  {
    if c.mounted {
      match e
      case SetSlideshow(on) =>
        assert Cleanup(c).pending == {};
      case MouseMove =>
        if c.listening {
          var cleared := if c.timerRef.Some? then c.pending - {c.timerRef.value} else c.pending;
          assert cleared == {};
        }
      case TimerFire(h) =>
      case Teardown =>
        assert Cleanup(c).pending == {};
    }
  }

  /** Consequently at most one hide timer is ever pending. */
  lemma AtMostOneTimer(c: Controls)
    requires Valid(c)
    ensures |c.pending| <= 1
  {
    if c.timerRef.Some? {
      var t := c.timerRef.value;
      if t in c.pending {
        assert c.pending == {t};
      } else {
        assert c.pending == {};
      }
    }
  }

  function Run(c: Controls, es: seq<ControlEvent>): Controls
    decreases |es|
  {
    if es == [] then c else Run(Step(c, es[0]), es[1..])
  }

  lemma {:induction false} RunValid(c: Controls, es: seq<ControlEvent>)
    requires Valid(c)
    ensures Valid(Run(c, es))
    ensures |Run(c, es).pending| <= 1
    decreases |es|
  {
    if es == [] {
      AtMostOneTimer(c);
    } else {
      StepValid(c, es[0]);
      RunValid(Step(c, es[0]), es[1..]);
    }
  }

  /** With the slideshow off no event but a slideshow change or teardown
      does anything, so the controls stay shown. */
  lemma SlideshowOffIsInert(c: Controls, e: ControlEvent)
    requires Valid(c) && c.mounted && !c.slideshow
    requires e.MouseMove? || e.TimerFire?
    ensures Step(c, e) == c && Step(c, e).show
  {
  }

  /** Turning the slideshow on hides the controls and starts listening. */
  lemma TurningOnHides(c: Controls)
    requires Valid(c) && c.mounted && !c.slideshow
    ensures var c' := Step(c, SetSlideshow(true));
      !c'.show && c'.listening && c'.pending == {}
  {
  }

  /** A mouse move during the slideshow shows the controls and leaves
      exactly the fresh timer pending, replacing any earlier one. */
  lemma MouseMoveReplacesTimer(c: Controls)
    requires Valid(c) && c.mounted && c.slideshow
    ensures var c' := Step(c, MouseMove);
      && c'.show
      && c'.pending == {c.nextTimer}
      && c.nextTimer !in c.pending
  {
  }

  /** The pending timer firing hides the controls; any other handle (an
      already cleared timer) changes nothing. */
  lemma TimerHides(c: Controls, h: nat)
    requires Valid(c) && c.mounted
    ensures h in c.pending ==> !Step(c, TimerFire(h)).show && Step(c, TimerFire(h)).pending == {}
    ensures h !in c.pending ==> Step(c, TimerFire(h)) == c
  {
  }

  /** After teardown, or after the slideshow is switched, no timer is
      pending and no listener is registered for the old setting. */
  lemma TeardownCancels(c: Controls)
    requires Valid(c) && c.mounted
    ensures var c' := Step(c, Teardown);
      !c'.listening && c'.pending == {} && Valid(c')
  {
  }

  lemma SwitchingCancels(c: Controls, on: bool)
    requires Valid(c) && c.mounted && on != c.slideshow
    ensures var c' := Step(c, SetSlideshow(on));
      c'.pending == {} && c'.listening == on && c'.show == !on
  {
  }

  /** Show, wait, hide: a mouse move followed by its own timer firing
      leaves the controls hidden with nothing pending. */
  lemma MoveThenFire(c: Controls)
    requires Valid(c) && c.mounted && c.slideshow
    ensures var c' := Step(Step(c, MouseMove), TimerFire(c.nextTimer));
      !c'.show && c'.pending == {} && c'.listening
  {
    MouseMoveReplacesTimer(c);
  }
}

=== FILE: paths.dfy ===
/** POSIX path helpers in the shape Node's `path` module gives them.
    A path is a string with '/' as separator. `Join` is segment
    concatenation: Node additionally normalises the result (collapsing
    repeated separators, "." and ".."), which this model does not do. */
module Paths {

  type Path = string

  /** `path.isAbsolute`: the path starts with a separator. */
  predicate IsAbsolute(p: Path)
  {
    |p| > 0 && p[0] == '/'
  }

  /** `path.join(a, b)` without normalisation: empty segments are dropped
      and joining two empty segments gives ".". */
  function Join(a: Path, b: Path): (r: Path)
    ensures r != ""
    ensures a != "" && b != "" ==> |r| == |a| + 1 + |b|
    ensures a != "" && b != "" ==> r[..|a|] == a && r[|a|] == '/' && r[|a| + 1..] == b
  {
    if a == "" && b == "" then "."
    else if a == "" then b
    else if b == "" then a
    else a + "/" + b
  }

  /** Joining onto a non-empty first segment keeps it absolute or relative
      as it was; an empty first segment leaves the second to decide. */
  lemma JoinAbsolute(a: Path, b: Path)
    ensures a != "" ==> (IsAbsolute(Join(a, b)) <==> IsAbsolute(a))
    ensures a == "" ==> (IsAbsolute(Join(a, b)) <==> IsAbsolute(b))
  {
  }

  /** Position of the last occurrence of `c` in `s`, or -1. */
  function LastIndexOf(s: string, c: char): (r: int)
    ensures -1 <= r < |s|
    ensures 0 <= r ==> s[r] == c
    ensures forall i :: r < i < |s| ==> s[i] != c
  {
    if s == [] then -1
    else if s[|s| - 1] == c then |s| - 1
    else LastIndexOf(s[..|s| - 1], c)
  }

  /** Length of `p` once its trailing separators are removed. */
  function TrimmedLength(p: Path): (n: nat)
    ensures n <= |p|
    ensures n == 0 || p[n - 1] != '/'
    ensures forall i :: n <= i < |p| ==> p[i] == '/'
  {
    if p != [] && p[|p| - 1] == '/' then TrimmedLength(p[..|p| - 1]) else |p|
  }

  /** Start of the last path component: just after the last separator
      that precedes the trailing ones. */
  function BaseStart(p: Path): (k: nat)
    ensures k <= TrimmedLength(p)
  {
    LastIndexOf(p[..TrimmedLength(p)], '/') + 1
  }

  /** `path.basename`: the last component, ignoring trailing separators;
      "" for "", "/" or "///". */
  function Basename(p: Path): (r: string)
    ensures '/' !in r
    ensures r == p[BaseStart(p)..TrimmedLength(p)]
  {
    p[BaseStart(p)..TrimmedLength(p)]
  }

  /** `path.extname`: the last component from its last '.' on; "" when the
      component has no '.', when its last '.' is its first character, or
      when the component is "..". */
  function Extname(p: Path): (r: string)
    ensures r != "" ==> r[0] == '.' && '.' !in r[1..]
    ensures r != "" ==> 0 < |Basename(p)| - |r| && Basename(p)[|Basename(p)| - |r|..] == r
  {
    var b := Basename(p);
    var d := LastIndexOf(b, '.');
    if d <= 0 || b == ".." then "" else b[d..]
  }

  /** The extension runs from the last '.' of the base name when that '.'
      is not its first character, and is empty when the base name has no
      '.' past its first character or is "..". */
  lemma ExtnameFromLastDot(p: Path)
    ensures var b := Basename(p);
      forall k :: (0 < k < |b| && b[k] == '.' && b != ".." &&
                   forall i :: k < i < |b| ==> b[i] != '.') ==> Extname(p) == b[k..]
    ensures var b := Basename(p);
      (b == ".." || forall k :: 0 < k < |b| ==> b[k] != '.') ==> Extname(p) == ""
  {
  }

  lemma LastIndexOfAt(s: string, c: char, k: nat)
    requires k < |s| && s[k] == c
    requires forall i :: k < i < |s| ==> s[i] != c
    ensures LastIndexOf(s, c) == k
  {
  }

  lemma LastIndexOfAbsent(s: string, c: char)
    requires forall i :: 0 <= i < |s| ==> s[i] != c
    ensures LastIndexOf(s, c) == -1
  {
  }

  /** The basename of a path whose last separator sits at `k`, with no
      separator after it, is what follows `k`. */
  lemma {:induction false} BasenameAfter(j: Path, k: int)
    requires -1 <= k < |j| - 1
    requires k >= 0 ==> j[k] == '/'
    requires forall i :: k < i < |j| ==> j[i] != '/'
    ensures Basename(j) == j[k + 1..]
  {
    assert TrimmedLength(j) == |j|;
    assert j[..|j|] == j;
    if k >= 0 {
      LastIndexOfAt(j, '/', k);
    } else {
      LastIndexOfAbsent(j, '/');
    }
  }

  /** Joining a directory with an entry name and taking the basename gives
      the entry name back. */
  lemma {:induction false} BasenameOfJoin(dir: Path, name: string)
    requires name != "" && '/' !in name
    ensures Basename(Join(dir, name)) == name
  {
    var j := Join(dir, name);
    if dir != "" {
      assert j == dir + "/" + name;
      forall i | |dir| < i < |j|
        ensures j[i] != '/'
      {
        assert j[i] == name[i - |dir| - 1];
      }
      BasenameAfter(j, |dir|);
      assert j[|dir| + 1..] == name;
    } else {
      assert j == name;
      BasenameAfter(j, -1);
    }
  }

  /** The trimmed length is determined by its three defining facts. */
  lemma TrimmedLengthIs(p: Path, n: nat)
    requires n <= |p| && (n == 0 || p[n - 1] != '/')
    requires forall i :: n <= i < |p| ==> p[i] == '/'
    ensures TrimmedLength(p) == n
  {
  }

  /** Putting a directory in front of a path with a last component keeps
      that component: `basename(join(dir, p)) == basename(p)`. */
  lemma {:induction false} BasenameOfJoinedPath(dir: Path, p: Path)
    requires Basename(p) != ""
    ensures Basename(Join(dir, p)) == Basename(p)
  {
    if dir != "" {
      var j := dir + "/" + p;
      var n, k, m := |dir| + 1, BaseStart(p), TrimmedLength(p);
      assert Join(dir, p) == j;
      JoinedBaseStart(dir, p);
      JoinedSlice(dir, p, k, m);
    }
  }

  lemma JoinedSlice(dir: Path, p: Path, a: nat, b: nat)
    requires a <= b <= |p|
    ensures (dir + "/" + p)[|dir| + 1 + a..|dir| + 1 + b] == p[a..b]
  {
    var j := dir + "/" + p;
    assert j[|dir| + 1..] == p;
  }

  /** The last component of a joined path lies where it lay in `p`, shifted
      by the directory and its separator. */
  lemma JoinedBaseStart(dir: Path, p: Path)
    requires TrimmedLength(p) > 0
    ensures TrimmedLength(dir + "/" + p) == |dir| + 1 + TrimmedLength(p)
    ensures BaseStart(dir + "/" + p) == |dir| + 1 + BaseStart(p)
  {
    var j := dir + "/" + p;
    var n, m := |dir| + 1, TrimmedLength(p);
    JoinedTrimmedLength(dir, p);
    JoinedPrefix(dir, p, m);
    JoinedLastSeparator(dir, p[..m]);
  }

  lemma JoinedPrefix(dir: Path, p: Path, b: nat)
    requires b <= |p|
    ensures (dir + "/" + p)[..|dir| + 1 + b] == dir + "/" + p[..b]
  {
  }

  /** A path with a last component keeps its trailing separators when a
      directory is put in front. */
  lemma JoinedTrimmedLength(dir: Path, p: Path)
    requires TrimmedLength(p) > 0
    ensures TrimmedLength(dir + "/" + p) == |dir| + 1 + TrimmedLength(p)
  {
    var j := dir + "/" + p;
    var n, m := |dir| + 1, TrimmedLength(p);
    forall i | n + m <= i < |j|
      ensures j[i] == '/'
    {
      assert j[i] == p[i - n];
    }
    assert j[n + m - 1] == p[m - 1];
    TrimmedLengthIs(j, n + m);
  }

  /** The last separator of `dir + "/" + s` is the last one of `s`, or the
      joining one when `s` has none. */
  lemma JoinedLastSeparator(dir: Path, s: string)
    ensures LastIndexOf(dir + "/" + s, '/') == |dir| + 1 + LastIndexOf(s, '/')
  {
    var t := dir + "/" + s;
    var n := |dir| + 1;
    var k := LastIndexOf(s, '/');
    forall i | n + k < i < |t|
      ensures t[i] != '/'
    {
      assert t[i] == s[i - n];
    }
    if k >= 0 {
      assert t[n + k] == s[k];
    }
    LastIndexOfAt(t, '/', n + k);
  }

  /** Two paths with separators at the same positions have their basename
      at the same positions. */
  lemma {:induction false} SameSeparators(a: Path, b: Path)
    requires |a| == |b|
    requires forall i :: 0 <= i < |a| ==> (a[i] == '/' <==> b[i] == '/')
    ensures TrimmedLength(a) == TrimmedLength(b)
    ensures BaseStart(a) == BaseStart(b)
  {
    if a != [] && a[|a| - 1] == '/' {
      SameSeparators(a[..|a| - 1], b[..|b| - 1]);
    }
    var n := TrimmedLength(a);
    SameLastSeparator(a[..n], b[..n]);
  }

  lemma {:induction false} SameLastSeparator(a: string, b: string)
    requires |a| == |b|
    requires forall i :: 0 <= i < |a| ==> (a[i] == '/' <==> b[i] == '/')
    ensures LastIndexOf(a, '/') == LastIndexOf(b, '/')
  {
    if a != [] && a[|a| - 1] != '/' {
      SameLastSeparator(a[..|a| - 1], b[..|b| - 1]);
    }
  }
}

=== FILE: server.dfy ===
/** The server's decisions: which directory to walk, the listing endpoint
    `GET /api/images` (clear the registry, walk, count) and the image
    endpoint `GET /api/images/:uuid` (look the identifier up and decide
    between 404, 400 and serving the file). The module-level map of the
    source is an explicit state value passed in and returned. */
module Server {
  import opened Wrappers
  import opened Paths
  import opened ImageClassifier
  import opened FileSystem
  import opened DirectoryItems
  import opened TreeBuilder
  import opened Environment

  /** `getRootDir`: the bundled test-data directory (a parameter here)
      outside production, the root link in production. The link path
      itself is walked; the filesystem follows it. */
  function RootDir(env: Env, testDataDir: Path): (p: Path)
    ensures IsProduction(env) ==> p == HomeDir(env) + "/" + RootLinkName
    ensures IsProduction(env) ==> Basename(p) == RootLinkName
    ensures !IsProduction(env) ==> p == testDataDir
  {
    if !IsProduction(env) then testDataDir else RootLink(env)
  }

  /** The registry and the fresh-id supply. */
  datatype State = State(registry: Registry, nextId: nat)

  /** Every registered identifier has been handed out. */
  predicate Valid(s: State)
  {
    Fresh(s.registry, s.nextId)
  }

  /** Server start: an empty registry. */
  const Initial: State := State(map[], 0)

  datatype ListResponse =
    | Listed(count: nat, directory: Item)  // 200 {success: true, count, directory}
    | ListFailed                           // 500 {success: false, error}

  /** `GET /api/images`: clear the registry, walk the root, count images.
      A failing walk still leaves the registry cleared. */
  function ListImages(s: State, root: Path, fs: Node): (r: (State, ListResponse))
    ensures r.1.ListFailed? <==> fs.Unstattable? || fs.Unlistable?
    ensures r.1.ListFailed? ==> r.0 == State(map[], s.nextId)
    ensures r.1.Listed? ==> r.1.count == ReachableImages(fs)
  {
    match BuildTree(root, fs, map[], s.nextId)
    case None => (State(map[], s.nextId), ListFailed)
    case Some(b) =>
      BuildTreeCount(root, fs, map[], s.nextId);
      (State(b.registry, b.next), Listed(CountImages(b.item), b.item))
  }

  /** A listing keeps the state valid and forgets every identifier handed
      out before it, so an identifier from an earlier listing is stale. */
  lemma ListingForgetsOldIds(s: State, root: Path, fs: Node)
    ensures var s' := ListImages(s, root, fs).0;
      && Valid(s')
      && s.nextId <= s'.nextId
      && forall k: Id :: k < s.nextId ==> k !in s'.registry
  {
    var cleared: Registry := map[];
    if BuildTree(root, fs, cleared, s.nextId).Some? {
      BuildTreeNumbering(root, fs, cleared, s.nextId);
      var b := BuildTree(root, fs, cleared, s.nextId).value;
      forall k: Id | k < s.nextId
        ensures k !in b.registry
      {
        assert SameAt(cleared, b.registry, k);
      }
    }
  }

  /** Every image of a listed tree is registered and no folder is; the
      identifiers of the tree are pairwise distinct. */
  lemma ListingRegistersImages(s: State, root: Path, fs: Node)
    requires ListImages(s, root, fs).1.Listed?
    ensures var (s', resp) := ListImages(s, root, fs);
      && DistinctIds(resp.directory)
      && forall x :: x in PreOrder(resp.directory) ==> (x.id in s'.registry <==> x.Image?)
  {
    BuildTreeNumbering(root, fs, map[], s.nextId);
  }

  /** Read through the new registry, the listed tree is the expected view of
      the filesystem. */
  lemma ListedTreeShape(s: State, root: Path, fs: Node)
    requires WellNamed(fs)
    requires ListImages(s, root, fs).1.Listed?
    ensures var (s', resp) := ListImages(s, root, fs);
      Expected(root, fs) == Some(Erase(resp.directory, s'.registry))
  {
    BuildTreeShape(root, fs, map[], s.nextId);
  }

  datatype LookupResponse =
    | ImageNotFound         // 404 "Image not found"
    | FileNotOnDisk         // 404 "File not found on disk"
    | NotAnImage            // 400 "Not an image file"
    | ServeFile(path: Path) // the file's bytes

  /** The status code: success only when bytes are served, 404 for both
      kinds of missing image, 400 for a non-image. */
  function Status(r: LookupResponse): (code: nat)
    ensures code == 200 <==> r.ServeFile?
    ensures code == 404 <==> r.ImageNotFound? || r.FileNotOnDisk?
    ensures code == 400 <==> r.NotAnImage?
  {
    match r
    case ImageNotFound => 404
    case FileNotOnDisk => 404
    case NotAnImage => 400
    case ServeFile(_) => 200
  }

  /** The JSON error text: present exactly on failure, and different for
      each failure. */
  function ErrorMessage(r: LookupResponse): (msg: string)
    ensures msg == "" <==> Status(r) == 200
  {
    match r
    case ImageNotFound => "Image not found"
    case FileNotOnDisk => "File not found on disk"
    case NotAnImage => "Not an image file"
    case ServeFile(_) => ""
  }

  /** A client can tell the failures apart by their message alone. */
  lemma ErrorMessagesDistinct(a: LookupResponse, b: LookupResponse)
    requires !a.ServeFile? && ErrorMessage(a) == ErrorMessage(b)
    ensures a == b
  {
  }

  /** `GET /api/images/:uuid`. `onDisk` is the set of paths `existsSync`
      reports as present at the time of the request. An empty registered
      path counts as missing from the table. A registered path that is gone
      is evicted; no other outcome changes the state. */
  function LookupImage(s: State, id: Id, onDisk: set<Path>): (r: (State, LookupResponse))
    ensures r.1.ImageNotFound? <==> id !in s.registry || s.registry[id] == ""
    ensures r.1.FileNotOnDisk? <==>
      id in s.registry && s.registry[id] != "" && s.registry[id] !in onDisk
    ensures r.1.NotAnImage? <==>
      id in s.registry && s.registry[id] != "" && s.registry[id] in onDisk
      && !IsImageFile(s.registry[id])
    ensures r.1.ServeFile? <==>
      id in s.registry && s.registry[id] in onDisk && IsImageFile(s.registry[id])
    ensures r.1.ServeFile? ==> r.1.path == s.registry[id]
    ensures r.1.FileNotOnDisk? ==> r.0 == State(s.registry - {id}, s.nextId)
    ensures !r.1.FileNotOnDisk? ==> r.0 == s
  {
    if id !in s.registry || s.registry[id] == "" then (s, ImageNotFound)
    else
      var p := s.registry[id];
      if p !in onDisk then (State(s.registry - {id}, s.nextId), FileNotOnDisk)
      else if !IsImageFile(p) then (s, NotAnImage)
      else (s, ServeFile(p))
  }

  /** An evicted identifier stays unknown, whatever the disk holds later. */
  lemma EvictionIsPermanent(s: State, id: Id, onDisk: set<Path>, later: set<Path>)
    requires LookupImage(s, id, onDisk).1.FileNotOnDisk?
    ensures LookupImage(LookupImage(s, id, onDisk).0, id, later).1 == ImageNotFound
    ensures forall k :: k != id ==>
      LookupImage(LookupImage(s, id, onDisk).0, k, later).1 == LookupImage(s, k, later).1
  {
  }

  /** After a new listing, every identifier from before it is unknown. */
  lemma StaleIdAfterRelist(s: State, root: Path, fs: Node, id: Id, onDisk: set<Path>)
    requires id < s.nextId
    ensures LookupImage(ListImages(s, root, fs).0, id, onDisk).1 == ImageNotFound
  {
    ListingForgetsOldIds(s, root, fs);
  }

  /** A path the classifier accepts is not empty. */
  lemma ImagePathNonEmpty(p: Path)
    requires IsImageFile(p)
    ensures p != ""
  {
  }

  /** Right after listing a directory, every image of the tree is served
      from its registered path while that path exists and reported missing
      otherwise; a folder identifier is never found. */
  lemma ListedItemsResolve(s: State, root: Path, fs: Node, x: Item, onDisk: set<Path>)
    requires fs.Directory? && WellNamed(fs)
    requires x in PreOrder(ListImages(s, root, fs).1.directory)
    ensures var s' := ListImages(s, root, fs).0;
      && (x.Folder? ==> LookupImage(s', x.id, onDisk).1 == ImageNotFound)
      && (x.Image? ==> x.id in s'.registry)
      && (x.Image? ==>
            LookupImage(s', x.id, onDisk).1 ==
              (if s'.registry[x.id] in onDisk then ServeFile(s'.registry[x.id])
               else FileNotOnDisk))
  {
    var b := BuildTree(root, fs, map[], s.nextId).value;
    BuildTreeNumbering(root, fs, map[], s.nextId);
    if x.Image? {
      BuildTreeServable(root, fs, map[], s.nextId);
      IdInInterval(PreOrder(b.item), s.nextId, b.next, x);
      ImagePathNonEmpty(b.registry[x.id]);
    }
  }

  /** A root that is a regular file is listed as a one-image tree whose
      identifier the image endpoint refuses when the name is not an image:
      the listing registers it without the classifier, the lookup applies it. */
  lemma RootFileAsymmetry(s: State, root: Path, onDisk: set<Path>)
    requires root != "" && root in onDisk && !IsImageFile(root)
    ensures var (s', resp) := ListImages(s, root, RegularFile);
      && resp == Listed(1, Image(s.nextId, Basename(root)))
      && LookupImage(s', s.nextId, onDisk).1 == NotAnImage
  {
  }
}

=== FILE: sidebar.dfy ===
/** The sidebar: the set of expanded folders, the folder click (toggle and
    select), and the rows `renderDirectory` produces for a tree. A row is
    what the sidebar shows on one line: which node, at which nesting level,
    with which left padding. */
module Sidebar {
  import opened Wrappers
  import opened Strings
  import opened DirectoryItems
  import opened Draggable
  import App

  // ---------------------------------------------------------------------
  // Expanding and selecting.

  /** `toggleFolder`: flip the membership of one identifier. */
  function ToggleFolder(expanded: set<Id>, id: Id): (r: set<Id>)
    ensures id in r <==> id !in expanded
    ensures forall k :: k != id ==> (k in r <==> k in expanded)
  {
    if id in expanded then expanded - {id} else expanded + {id}
  }

  /** Toggling twice restores the set. */
  lemma ToggleTwice(expanded: set<Id>, id: Id)
    ensures ToggleFolder(ToggleFolder(expanded, id), id) == expanded
  {
  }

  /** `handleFolderClick`: toggle the folder and select it in the main view. */
  function FolderClick(expanded: set<Id>, m: App.Model, id: Id): (r: (set<Id>, App.Model))
    ensures r.0 == ToggleFolder(expanded, id)
    ensures r.1 == App.Step(m, App.SelectDirectory(id))
    ensures r.1.selected == Some(id)
  {
    (ToggleFolder(expanded, id), App.Step(m, App.SelectDirectory(id)))
  }

  // ---------------------------------------------------------------------
  // Rows.

  datatype RowKind = FolderRow(open: bool) | ImageRow

  /** One rendered line: node, level, left padding in pixels, and whether it
      is a folder (open or closed icon) or an image. */
  datatype Row = Row(id: Id, name: string, level: nat, indent: nat, kind: RowKind)

  function RowFor(expanded: set<Id>, t: Item, level: nat): (r: Row)
    ensures r.id == t.id && r.name == t.name && r.level == level
    ensures r.indent == 16 * level
    ensures r.kind.FolderRow? <==> t.Folder?
    ensures r.kind.FolderRow? ==> (r.kind.open <==> t.id in expanded)
  {
    Row(t.id, t.name, level, 16 * level,
        if t.Folder? then FolderRow(t.id in expanded) else ImageRow)
  }

  /** `renderDirectory(item, level)`: the node's row, then, for an expanded
      folder with children, its children's rows one level deeper. */
  function Render(expanded: set<Id>, t: Item, level: nat): (rows: seq<Row>)
    ensures |rows| >= 1 && rows[0] == RowFor(expanded, t, level)
    ensures forall i :: 0 <= i < |rows| ==>
      rows[i].level >= level && rows[i].indent == 16 * rows[i].level
    decreases t, 1
  {
    [RowFor(expanded, t, level)] +
    (if t.Folder? && t.id in expanded && |t.children| > 0
     then RenderAll(expanded, t.children, level + 1) else [])
  }

  /** A node's children are rendered exactly when it is an expanded folder
      with at least one child; the first of them follows the node's own row
      one level deeper. */
  lemma ChildrenShownIff(expanded: set<Id>, t: Item, level: nat)
    ensures |Render(expanded, t, level)| > 1 <==>
      t.Folder? && t.id in expanded && |t.children| > 0
    ensures |Render(expanded, t, level)| > 1 ==>
      Render(expanded, t, level)[1] == RowFor(expanded, t.children[0], level + 1)
  {
  }

  function RenderAll(expanded: set<Id>, ts: seq<Item>, level: nat): (rows: seq<Row>)
    ensures forall i :: 0 <= i < |rows| ==>
      rows[i].level >= level && rows[i].indent == 16 * rows[i].level
    decreases ts, 0
  {
    if ts == [] then [] else Render(expanded, ts[0], level) + RenderAll(expanded, ts[1..], level)
  }

  /** What the sidebar shows: "No data", or the root's name over its
      children's rows at level 0. The root's own row is never rendered. */
  datatype View = NoData | Tree(title: string, rootId: Id, rows: seq<Row>)

  function SidebarView(directory: Option<Item>, expanded: set<Id>): (v: View)
    ensures v.NoData? <==>
      directory.None? || directory.value.Image? || directory.value.children == []
    ensures v.Tree? ==> v.title == directory.value.name && v.rootId == directory.value.id
    ensures v.Tree? ==>
      v.rows == VisibleRows(expanded, PlacementsAll(directory.value.children, 0, []))
  {
    match directory
    case Some(Folder(id, name, kids)) =>
      if |kids| > 0 then
        RenderAllIsVisiblePlacements(expanded, kids, 0, []);
        Tree(name, id, RenderAll(expanded, kids, 0))
      else NoData
    case _ => NoData
  }

  // ---------------------------------------------------------------------
  // Reference: visibility read off the tree.

  /** A node with its depth and the identifiers of the folders above it. */
  datatype Placed = Placed(item: Item, level: nat, above: seq<Id>)

  /** Every node of a tree, in pre-order, with its placement. */
  function Placements(t: Item, level: nat, above: seq<Id>): (r: seq<Placed>)
    ensures |r| >= 1 && r[0] == Placed(t, level, above)
    decreases t, 1
  {
    [Placed(t, level, above)] +
    (if t.Folder? then PlacementsAll(t.children, level + 1, above + [t.id]) else [])
  }

  function PlacementsAll(ts: seq<Item>, level: nat, above: seq<Id>): seq<Placed>
    decreases ts, 0
  {
    if ts == [] then [] else Placements(ts[0], level, above) + PlacementsAll(ts[1..], level, above)
  }

  /** A node is visible when every folder above it is expanded. */
  predicate Visible(expanded: set<Id>, p: Placed)
  {
    forall k :: 0 <= k < |p.above| ==> p.above[k] in expanded
  }

  /** The rows of the visible placements, in order. */
  function VisibleRows(expanded: set<Id>, ps: seq<Placed>): seq<Row>
  {
    if ps == [] then []
    else
      (if Visible(expanded, ps[0]) then [RowFor(expanded, ps[0].item, ps[0].level)] else [])
      + VisibleRows(expanded, ps[1..])
  }

  lemma {:induction false} VisibleRowsConcat(expanded: set<Id>, a: seq<Placed>, b: seq<Placed>)
    ensures VisibleRows(expanded, a + b) == VisibleRows(expanded, a) + VisibleRows(expanded, b)
  {
    if a != [] {
      assert (a + b)[0] == a[0];
      assert (a + b)[1..] == a[1..] + b;
      VisibleRowsConcat(expanded, a[1..], b);
    } else {
      assert a + b == b;
    }
  }

  /** Every placement below a node carries the path to it as a prefix. */
  lemma {:induction false} PlacementsBelow(ts: seq<Item>, level: nat, above: seq<Id>, p: Placed)
    requires p in PlacementsAll(ts, level, above)
    ensures |above| <= |p.above| && p.above[..|above|] == above
    decreases ts, 0
  {
    if ts != [] {
      if p in Placements(ts[0], level, above) {
        PlacementsUnder(ts[0], level, above, p);
      } else {
        PlacementsBelow(ts[1..], level, above, p);
      }
    }
  }

  lemma {:induction false} PlacementsUnder(t: Item, level: nat, above: seq<Id>, p: Placed)
    requires p in Placements(t, level, above)
    ensures |above| <= |p.above| && p.above[..|above|] == above
    decreases t, 1
  {
    if p != Placed(t, level, above) {
      assert t.Folder?;
      PlacementsBelow(t.children, level + 1, above + [t.id], p);
      assert p.above[..|above|] == p.above[..|above| + 1][..|above|];
    }
  }

  /** Below a collapsed folder nothing is visible. */
  lemma {:induction false} HiddenBelow(expanded: set<Id>, ps: seq<Placed>, id: Id, depth: nat)
    requires id !in expanded
    requires forall p :: p in ps ==> depth < |p.above| && p.above[depth] == id
    ensures VisibleRows(expanded, ps) == []
  {
    if ps != [] {
      assert ps[0] in ps;
      assert !Visible(expanded, ps[0]);
      HiddenBelow(expanded, ps[1..], id, depth);
    }
  }

  /** The children of a collapsed folder contribute no visible row. */
  lemma CollapsedChildrenHidden(expanded: set<Id>, t: Item, level: nat, above: seq<Id>)
    requires t.Folder? && t.id !in expanded
    ensures VisibleRows(expanded, PlacementsAll(t.children, level + 1, above + [t.id])) == []
  {
    var ab := above + [t.id];
    var ps := PlacementsAll(t.children, level + 1, ab);
    forall p | p in ps
      ensures |above| < |p.above| && p.above[|above|] == t.id
    {
      PlacementsBelow(t.children, level + 1, ab, p);
      assert p.above[..|ab|] == ab;
      assert p.above[|above|] == p.above[..|ab|][|above|];
    }
    HiddenBelow(expanded, ps, t.id, |above|);
  }

  /** `renderDirectory` shows exactly the visible nodes, in pre-order, each
      at its depth: a node is shown iff every folder above it is expanded.
      `above` are the folders between the rendered root and `t`, all of
      them expanded. */
  lemma {:induction false} RenderIsVisiblePlacements(expanded: set<Id>, t: Item, level: nat,
                                                     above: seq<Id>)
    requires forall k :: 0 <= k < |above| ==> above[k] in expanded
    ensures Render(expanded, t, level) == VisibleRows(expanded, Placements(t, level, above))
    decreases t, 1
  {
    var head := Placed(t, level, above);
    var rest := if t.Folder? then PlacementsAll(t.children, level + 1, above + [t.id]) else [];
    assert Placements(t, level, above) == [head] + rest;
    VisibleRowsConcat(expanded, [head], rest);
    assert VisibleRows(expanded, [head]) == [RowFor(expanded, t, level)] by {
      assert Visible(expanded, head);
      assert ([head])[1..] == [];
    }
    if t.Folder? {
      if t.id in expanded {
        RenderAllIsVisiblePlacements(expanded, t.children, level + 1, above + [t.id]);
        if |t.children| == 0 {
          assert rest == [];
        }
      } else {
        CollapsedChildrenHidden(expanded, t, level, above);
      }
    }
  }

  lemma {:induction false} RenderAllIsVisiblePlacements(expanded: set<Id>, ts: seq<Item>,
                                                        level: nat, above: seq<Id>)
    requires forall k :: 0 <= k < |above| ==> above[k] in expanded
    ensures RenderAll(expanded, ts, level) == VisibleRows(expanded, PlacementsAll(ts, level, above))
    decreases ts, 0
  {
    if ts != [] {
      RenderIsVisiblePlacements(expanded, ts[0], level, above);
      RenderAllIsVisiblePlacements(expanded, ts[1..], level, above);
      VisibleRowsConcat(expanded, Placements(ts[0], level, above), PlacementsAll(ts[1..], level, above));
    }
  }

  /** The root's own entry in the expanded set never matters: clicking the
      sidebar box toggles it without changing a single row. */
  lemma RootToggleInvisible(d: Item, expanded: set<Id>)
    requires d.Folder? && DistinctIds(d)
    ensures SidebarView(Some(d), ToggleFolder(expanded, d.id)) == SidebarView(Some(d), expanded)
  {
    if |d.children| > 0 {
      var e2 := ToggleFolder(expanded, d.id);
      forall x | x in PreOrderAll(d.children)
        ensures x.id != d.id
      {
        ChildIdDiffers(d, x);
      }
      RenderAllSameOn(expanded, e2, d.children, 0, d.id);
    }
  }

  /** A descendant of a tree without repeated identifiers has an identifier
      other than the root's. */
  lemma ChildIdDiffers(d: Item, x: Item)
    requires d.Folder? && DistinctIds(d) && x in PreOrderAll(d.children)
    ensures x.id != d.id
  {
    var s := PreOrder(d);
    assert s == [d] + PreOrderAll(d.children);
    var j :| 0 <= j < |PreOrderAll(d.children)| && PreOrderAll(d.children)[j] == x;
    assert s[j + 1] == x;
    assert Ids(s)[0] != Ids(s)[j + 1];
  }

  /** Rows depend on the expanded set only at the identifiers of the nodes
      rendered. */
  lemma {:induction false} RenderSameOn(e1: set<Id>, e2: set<Id>, t: Item, level: nat, id: Id)
    requires forall k :: k != id ==> (k in e1 <==> k in e2)
    requires forall x :: x in PreOrder(t) ==> x.id != id
    ensures Render(e1, t, level) == Render(e2, t, level)
    decreases t, 1
  {
    assert PreOrder(t)[0] == t;
    if t.Folder? {
      RenderAllSameOn(e1, e2, t.children, level + 1, id);
    }
  }

  lemma {:induction false} RenderAllSameOn(e1: set<Id>, e2: set<Id>, ts: seq<Item>, level: nat, id: Id)
    requires forall k :: k != id ==> (k in e1 <==> k in e2)
    requires forall x :: x in PreOrderAll(ts) ==> x.id != id
    ensures RenderAll(e1, ts, level) == RenderAll(e2, ts, level)
    decreases ts, 0
  {
    if ts != [] {
      RenderSameOn(e1, e2, ts[0], level, id);
      RenderAllSameOn(e1, e2, ts[1..], level, id);
    }
  }

  // ---------------------------------------------------------------------
  // Dragging an image row.

  /** The payload a sidebar image row writes on drag start, as written:
      the image's id and name under keys of its own. */
  function ImageRowDragAsWritten(dt: DataTransfer, id: Id, name: string): (r: DataTransfer)
    ensures GetData(r, "imageId") == IdText(id) && GetData(r, "imageName") == name
  {
    dt["imageId" := IdText(id)]["imageName" := name]
  }

  /** A sidebar folder's drop zone reads other keys, so a sidebar image
      dropped on a sidebar folder reaches `onDrop` with an empty item id. */
  lemma SidebarDropLosesImageId(id: Id, name: string, folderId: Id)
    ensures var data := ImageRowDragAsWritten(map[], id, name);
      ZoneCall(IdText(folderId), true, Drop(data)) == Some(DropCall("", IdText(folderId), ""))
  {
  }

  /** The payload with the image's id also under the key drop zones read. */
  function ImageRowDrag(dt: DataTransfer, id: Id, name: string): (r: DataTransfer)
    ensures GetData(r, "imageId") == IdText(id) && GetData(r, "imageName") == name
    ensures GetData(r, ItemIdKey) == IdText(id)
  {
    dt["imageId" := IdText(id)]["imageName" := name][ItemIdKey := IdText(id)]
  }

  /** With the corrected payload, the drop hands the folder's `onDrop` the
      image's identifier, the folder's own identifier and no source area. */
  lemma SidebarDropDeliversCall(id: Id, name: string, folderId: Id)
    ensures ZoneCall(IdText(folderId), true, Drop(ImageRowDrag(map[], id, name)))
            == Some(DropCall(IdText(id), IdText(folderId), ""))
  {
  }

  /** With the corrected payload, the drop hands the folder's `onDrop` the
      dragged image's identifier and that identifier only. */
  lemma SidebarDropDeliversImage(id: Id, other: Id, name: string, folderId: Id)
    requires ZoneCall(IdText(folderId), true, Drop(ImageRowDrag(map[], id, name))).value.itemId
             == IdText(other)
    ensures other == id
  {
    DecimalInjective(id, other);
  }
}

=== FILE: strings.dfy ===
/** Character-level helpers that stand in for JavaScript built-ins:
    `String.prototype.toLowerCase` restricted to ASCII letters, and the
    decimal rendering `Number.prototype.toString` gives a whole number. */
module Strings {

  /** ASCII case folding of one character; every other character is kept. */
  function LowerChar(c: char): char
  {
    if 'A' <= c <= 'Z' then (c as int + 32) as char else c
  }

  function Lower(s: string): (r: string)
    ensures |r| == |s|
    ensures forall i :: 0 <= i < |s| ==> r[i] == LowerChar(s[i])
  {
    seq(|s|, i requires 0 <= i < |s| => LowerChar(s[i]))
  }

  /** Case folding commutes with slicing. */
  lemma LowerSlice(s: string, i: nat, j: nat)
    requires i <= j <= |s|
    ensures Lower(s[i..j]) == Lower(s)[i..j]
  {
  }

  /** Folding never creates or removes a punctuation character such as '.' or '/'. */
  lemma LowerKeepsPunctuation(x: char, c: char)
    requires !('A' <= c <= 'Z') && !('a' <= c <= 'z')
    ensures LowerChar(x) == c <==> x == c
  {
  }

  function DigitChar(d: nat): (c: char)
    requires d < 10
    ensures '0' <= c <= '9'
  {
    (48 + d) as char
  }

  /** Decimal digits of a natural number, most significant first, no leading zero. */
  function Decimal(n: nat): (r: string)
    ensures 1 <= |r|
    ensures forall i :: 0 <= i < |r| ==> '0' <= r[i] <= '9'
    ensures n < 10 <==> |r| == 1
  {
    if n < 10 then [DigitChar(n)] else Decimal(n / 10) + [DigitChar(n % 10)]
  }

  /** Distinct numbers render as distinct strings, so a rendered number
      identifies the number it came from. */
  lemma {:induction false} DecimalInjective(a: nat, b: nat)
    requires Decimal(a) == Decimal(b)
    ensures a == b
  {
    if a < 10 || b < 10 {
      assert |Decimal(a)| == 1 && |Decimal(b)| == 1;
      assert Decimal(a)[0] == DigitChar(a) && Decimal(b)[0] == DigitChar(b);
    } else {
      var da, db := Decimal(a), Decimal(b);
      assert da[..|da| - 1] == Decimal(a / 10);
      assert db[..|db| - 1] == Decimal(b / 10);
      DecimalInjective(a / 10, b / 10);
      assert da[|da| - 1] == DigitChar(a % 10);
      assert db[|db| - 1] == DigitChar(b % 10);
    }
  }
}

=== FILE: tree_builder.dfy ===
/** `buildDirectoryTree`: the recursive walk that turns a filesystem
    snapshot into a `DirectoryItem` tree and registers every image it
    produces. The registry is threaded through the walk as a value, and so
    is the fresh-id supply: `next` is the next unused identifier. */
module TreeBuilder {
  import opened Wrappers
  import opened Paths
  import opened ImageClassifier
  import opened FileSystem
  import opened DirectoryItems

  /** The identifier -> absolute path table. */
  type Registry = map<Id, Path>

  datatype Built = Built(item: Item, registry: Registry, next: nat)
  datatype Walk = Walk(items: seq<Item>, registry: Registry, next: nat)

  /** A folder whose basename is empty (the path "/" for one) is named "root". */
  function FolderName(base: string): (r: string)
    ensures r != ""
    ensures base != "" ==> r == base
  {
    if base == "" then "root" else base
  }

  /** Every registered identifier has been handed out already. */
  predicate Fresh(reg: Registry, next: nat)
  {
    forall k :: k in reg ==> k < next
  }

  /** The walk of one path. `None` is a thrown error: `stat` failing, or
      `readdirSync` failing on a directory. A path that is not a directory
      becomes an image leaf and is registered without consulting the
      classifier. */
  function BuildTree(path: Path, node: Node, reg: Registry, next: nat): (r: Option<Built>)
    ensures r.None? <==> node.Unstattable? || node.Unlistable?
    ensures r.Some? ==> next < r.value.next
    ensures r.Some? ==> r.value.item.id == next
    decreases node
  {
    match node
    case Unstattable => None
    case Unlistable => None
    case Directory(entries) =>
      var w := BuildEntries(path, entries, reg, next + 1);
      Some(Built(Folder(next, FolderName(Basename(path)), w.items), w.registry, w.next))
    case _ =>
      Some(Built(Image(next, Basename(path)), reg[next := path], next + 1))
  }

  /** The body of the entry loop for one entry. A sub-directory is walked
      and an error inside that walk is caught, so the entry is skipped; a
      regular file is kept only if its name passes the classifier; anything
      else, including an entry whose `stat` fails, is skipped. */
  function BuildEntry(dir: Path, e: Entry, reg: Registry, next: nat): (r: Option<Built>)
    ensures r.Some? ==> next < r.value.next
    decreases e
  {
    var p := Join(dir, e.name);
    match e.node
    case Directory(_) => BuildTree(p, e.node, reg, next)
    case Unlistable => BuildTree(p, e.node, reg, next)
    case RegularFile =>
      if IsImageFile(e.name) then Some(Built(Image(next, e.name), reg[next := p], next + 1))
      else None
    case _ => None
  }

  /** The entry loop: entries in enumeration order; a skipped entry does
      not stop its later siblings. */
  function BuildEntries(dir: Path, entries: seq<Entry>, reg: Registry, next: nat): (w: Walk)
    ensures next <= w.next
    decreases entries
  {
    if entries == [] then Walk([], reg, next)
    else
      match BuildEntry(dir, entries[0], reg, next)
      case None => BuildEntries(dir, entries[1..], reg, next)
      case Some(b) =>
        var rest := BuildEntries(dir, entries[1..], b.registry, b.next);
        Walk([b.item] + rest.items, rest.registry, rest.next)
  }

  // ---------------------------------------------------------------------
  // Reference: the tree the walk should show, read off the filesystem alone.

  /** A tree without identifiers; an image carries the path it resolves to. */
  datatype Shape =
    | FolderShape(name: string, children: seq<Shape>)
    | ImageShape(name: string, path: Option<Path>)

  /** What a walk of `path` should show: sub-folders and image files of a
      directory, in entry order, under their entry names. */
  function Expected(path: Path, node: Node): Option<Shape>
  {
    match node
    case Unstattable => None
    case Unlistable => None
    case Directory(es) => Some(FolderShape(FolderName(Basename(path)), ExpectedEntries(path, es)))
    case _ => Some(ImageShape(Basename(path), Some(path)))
  }

  function ExpectedEntries(dir: Path, es: seq<Entry>): seq<Shape>
    decreases es
  {
    if es == [] then []
    else
      var e := es[0];
      var p := Join(dir, e.name);
      var shown :=
        match e.node
        case Directory(sub) => [FolderShape(e.name, ExpectedEntries(p, sub))]
        case RegularFile => if IsImageFile(e.name) then [ImageShape(e.name, Some(p))] else []
        case _ => [];
      shown + ExpectedEntries(dir, es[1..])
  }

  /** Number of image files a walk of `node` reaches. */
  function ReachableImages(node: Node): nat
  {
    match node
    case Directory(es) => ReachableInEntries(es)
    case Unstattable => 0
    case Unlistable => 0
    case _ => 1
  }

  function ReachableInEntries(es: seq<Entry>): nat
    decreases es
  {
    if es == [] then 0
    else
      var here :=
        match es[0].node
        case Directory(_) => ReachableImages(es[0].node)
        case RegularFile => if IsImageFile(es[0].name) then 1 else 0
        case _ => 0;
      here + ReachableInEntries(es[1..])
  }

  /** A built tree read through the registry: identifiers dropped, each
      image replaced by the path registered for it. */
  function Erase(t: Item, reg: Registry): Shape
  {
    match t
    case Folder(_, name, kids) => FolderShape(name, EraseAll(kids, reg))
    case Image(id, name) => ImageShape(name, if id in reg then Some(reg[id]) else None)
  }

  function EraseAll(ts: seq<Item>, reg: Registry): seq<Shape>
  {
    if ts == [] then [] else [Erase(ts[0], reg)] + EraseAll(ts[1..], reg)
  }

  // ---------------------------------------------------------------------
  // Identifiers and registrations.

  predicate SameAt(r1: Registry, r2: Registry, k: Id)
  {
    (k in r1 <==> k in r2) && (k in r1 ==> r1[k] == r2[k])
  }

  /** `r2` differs from `r1` only on identifiers in [lo, hi). */
  ghost predicate ChangedOnlyIn(r1: Registry, r2: Registry, lo: nat, hi: nat)
  {
    forall k: Id :: (k < lo || hi <= k) ==> SameAt(r1, r2, k)
  }

  /** The facts below for a single image leaf. */
  lemma LeafNumbering(id: Id, name: string, reg: Registry, p: Path)
    requires Fresh(reg, id)
    ensures var leaf := Image(id, name); var reg' := reg[id := p];
      && Ids(PreOrder(leaf)) == Interval(id, id + 1)
      && ChangedOnlyIn(reg, reg', id, id + 1)
      && Fresh(reg', id + 1)
      && (forall x :: x in PreOrder(leaf) ==> (x.id in reg' <==> x.Image?))
  {
    var leaf := Image(id, name);
    assert PreOrder(leaf) == [leaf];
  }

  /** A walk numbers the nodes it produces lo, lo + 1, ... in pre-order,
      touches the registry only at those numbers, and registers exactly the
      image nodes among them: folder identifiers are never registered. */
  lemma {:induction false} BuildTreeNumbering(path: Path, node: Node, reg: Registry, next: nat)
    requires Fresh(reg, next)
    requires BuildTree(path, node, reg, next).Some?
    ensures var b := BuildTree(path, node, reg, next).value;
      && Ids(PreOrder(b.item)) == Interval(next, b.next)
      && ChangedOnlyIn(reg, b.registry, next, b.next)
      && Fresh(b.registry, b.next)
      && (forall x :: x in PreOrder(b.item) ==> (x.id in b.registry <==> x.Image?))
    decreases node, 2
  {
    if node.Directory? {
      BuildEntriesNumbering(path, node.entries, reg, next + 1);
      FolderNumbering(path, node.entries, reg, next);
    } else {
      LeafNumbering(next, Basename(path), reg, path);
    }
  }

  /** The folder step of `BuildTreeNumbering`: the folder's own number goes
      in front of its children's interval and stays unregistered. */
  lemma FolderNumbering(path: Path, es: seq<Entry>, reg: Registry, next: nat)
    requires Fresh(reg, next)
    requires var w := BuildEntries(path, es, reg, next + 1);
      && Ids(PreOrderAll(w.items)) == Interval(next + 1, w.next)
      && ChangedOnlyIn(reg, w.registry, next + 1, w.next)
      && Fresh(w.registry, w.next)
      && (forall x :: x in PreOrderAll(w.items) ==> (x.id in w.registry <==> x.Image?))
    ensures var b := BuildTree(path, Directory(es), reg, next).value;
      && Ids(PreOrder(b.item)) == Interval(next, b.next)
      && ChangedOnlyIn(reg, b.registry, next, b.next)
      && Fresh(b.registry, b.next)
      && (forall x :: x in PreOrder(b.item) ==> (x.id in b.registry <==> x.Image?))
  {
    var w := BuildEntries(path, es, reg, next + 1);
    var folder := Folder(next, FolderName(Basename(path)), w.items);
    assert PreOrder(folder) == [folder] + PreOrderAll(w.items);
    assert Ids(PreOrder(folder)) == Interval(next, w.next) by {
      IdsConcat([folder], PreOrderAll(w.items));
      IntervalConcat(next, next + 1, w.next);
    }
    assert next !in w.registry by {
      assert SameAt(reg, w.registry, next);
    }
  }

  lemma {:induction false} BuildEntryNumbering(dir: Path, e: Entry, reg: Registry, next: nat)
    requires Fresh(reg, next)
    requires BuildEntry(dir, e, reg, next).Some?
    ensures var b := BuildEntry(dir, e, reg, next).value;
      && Ids(PreOrder(b.item)) == Interval(next, b.next)
      && ChangedOnlyIn(reg, b.registry, next, b.next)
      && Fresh(b.registry, b.next)
      && (forall x :: x in PreOrder(b.item) ==> (x.id in b.registry <==> x.Image?))
    decreases e, 3
  {
    if e.node.Directory? || e.node.Unlistable? {
      BuildTreeNumbering(Join(dir, e.name), e.node, reg, next);
    } else {
      LeafNumbering(next, e.name, reg, Join(dir, e.name));
    }
  }

  lemma {:induction false} BuildEntriesNumbering(dir: Path, es: seq<Entry>, reg: Registry, next: nat)
    requires Fresh(reg, next)
    ensures var w := BuildEntries(dir, es, reg, next);
      && Ids(PreOrderAll(w.items)) == Interval(next, w.next)
      && ChangedOnlyIn(reg, w.registry, next, w.next)
      && Fresh(w.registry, w.next)
      && (forall x :: x in PreOrderAll(w.items) ==> (x.id in w.registry <==> x.Image?))
    decreases es, 0
  {
    if es != [] {
      match BuildEntry(dir, es[0], reg, next)
      case None =>
        BuildEntriesNumbering(dir, es[1..], reg, next);
      case Some(b) =>
        BuildEntryNumbering(dir, es[0], reg, next);
        BuildEntriesNumbering(dir, es[1..], b.registry, b.next);
        var rest := BuildEntries(dir, es[1..], b.registry, b.next);
        PreOrderAllCons(b.item, rest.items);
        IdsConcat(PreOrder(b.item), PreOrderAll(rest.items));
        IntervalConcat(next, b.next, rest.next);
        forall x | x in PreOrder(b.item)
          ensures x.id in rest.registry <==> x.Image?
        {
          IdInInterval(PreOrder(b.item), next, b.next, x);
          assert SameAt(b.registry, rest.registry, x.id);
        }
        forall k: Id | k < next || rest.next <= k
          ensures SameAt(reg, rest.registry, k)
        {
          assert SameAt(reg, b.registry, k);
          assert SameAt(b.registry, rest.registry, k);
        }
    }
  }

  /** Identifiers within one built tree are pairwise distinct. */
  lemma BuiltIdsDistinct(path: Path, node: Node, reg: Registry, next: nat)
    requires Fresh(reg, next)
    requires BuildTree(path, node, reg, next).Some?
    ensures DistinctIds(BuildTree(path, node, reg, next).value.item)
  {
    BuildTreeNumbering(path, node, reg, next);
  }

  // ---------------------------------------------------------------------
  // The built tree is the expected one.

  lemma {:induction false} EraseFrame(t: Item, r1: Registry, r2: Registry)
    requires forall x :: x in PreOrder(t) ==> SameAt(r1, r2, x.id)
    ensures Erase(t, r1) == Erase(t, r2)
    decreases t, 1
  {
    if t.Folder? {
      EraseAllFrame(t.children, r1, r2);
    }
  }

  lemma {:induction false} EraseAllFrame(ts: seq<Item>, r1: Registry, r2: Registry)
    requires forall x :: x in PreOrderAll(ts) ==> SameAt(r1, r2, x.id)
    ensures EraseAll(ts, r1) == EraseAll(ts, r2)
    decreases ts, 0
  {
    if ts != [] {
      EraseFrame(ts[0], r1, r2);
      EraseAllFrame(ts[1..], r1, r2);
    }
  }

  /** Read through the registry it produced, a built tree is exactly the
      expected tree: the same folders and image files, in entry order, under
      the same names, each image resolving to its own path. */
  lemma {:induction false} BuildTreeShape(path: Path, node: Node, reg: Registry, next: nat)
    requires Fresh(reg, next) && WellNamed(node)
    requires BuildTree(path, node, reg, next).Some?
    ensures Expected(path, node) == Some(Erase(BuildTree(path, node, reg, next).value.item,
                                               BuildTree(path, node, reg, next).value.registry))
    decreases node, 1
  {
    if node.Directory? {
      BuildEntriesShape(path, node.entries, reg, next + 1);
    }
  }

  lemma {:induction false} BuildEntriesShape(dir: Path, es: seq<Entry>, reg: Registry, next: nat)
    requires Fresh(reg, next) && WellNamedEntries(es)
    ensures var w := BuildEntries(dir, es, reg, next);
      EraseAll(w.items, w.registry) == ExpectedEntries(dir, es)
    decreases es, 0
  {
    if es != [] {
      var e := es[0];
      var p := Join(dir, e.name);
      match BuildEntry(dir, e, reg, next)
      case None =>
        BuildEntriesShape(dir, es[1..], reg, next);
      case Some(b) =>
        BuildEntryNumbering(dir, e, reg, next);
        BuildEntriesNumbering(dir, es[1..], b.registry, b.next);
        BuildEntriesShape(dir, es[1..], b.registry, b.next);
        var rest := BuildEntries(dir, es[1..], b.registry, b.next);
        forall x | x in PreOrder(b.item)
          ensures SameAt(b.registry, rest.registry, x.id)
        {
          IdInInterval(PreOrder(b.item), next, b.next, x);
        }
        EraseFrame(b.item, b.registry, rest.registry);
        assert ([b.item] + rest.items)[0] == b.item;
        assert ([b.item] + rest.items)[1..] == rest.items;
        if e.node.Directory? {
          BuildTreeShape(p, e.node, reg, next);
          BasenameOfJoin(dir, e.name);
        }
    }
  }

  /** An entry path is an image exactly when its entry name is. */
  lemma JoinedImageName(dir: Path, name: string)
    requires name != "" && '/' !in name
    ensures IsImageFile(Join(dir, name)) == IsImageFile(name)
  {
    BasenameOfJoin(dir, name);
    BasenameOfJoin("", name);
    assert Extname(Join(dir, name)) == Extname(name);
  }

  /** Every path registered under an identifier in [lo, hi) passes the classifier. */
  ghost predicate ServableIn(reg: Registry, lo: nat, hi: nat)
  {
    forall k :: lo <= k < hi && k in reg ==> IsImageFile(reg[k])
  }

  /** Servable ranges compose when the later walk leaves the earlier range alone. */
  lemma ServableCompose(r1: Registry, r2: Registry, lo: nat, mid: nat, hi: nat)
    requires lo <= mid <= hi
    requires ServableIn(r1, lo, mid) && ServableIn(r2, mid, hi)
    requires ChangedOnlyIn(r1, r2, mid, hi)
    ensures ServableIn(r2, lo, hi)
  {
    forall k | lo <= k < hi && k in r2
      ensures IsImageFile(r2[k])
    {
      if k < mid {
        assert SameAt(r1, r2, k);
      }
    }
  }

  lemma ServableExtend(r: Registry, lo: nat, hi: nat)
    requires lo < hi && lo !in r
    requires ServableIn(r, lo + 1, hi)
    ensures ServableIn(r, lo, hi)
  {
    forall k | lo <= k < hi && k in r
      ensures IsImageFile(r[k])
    {
      assert k != lo;
    }
  }

  /** The walk below a folder never registers the folder's own identifier. */
  lemma FolderIdUnregistered(dir: Path, es: seq<Entry>, reg: Registry, next: nat)
    requires Fresh(reg, next)
    ensures next !in BuildEntries(dir, es, reg, next + 1).registry
  {
    BuildEntriesNumbering(dir, es, reg, next + 1);
    assert SameAt(reg, BuildEntries(dir, es, reg, next + 1).registry, next);
  }

  /** Every path registered by the walk of a directory passes the
      classifier, so an image listed from a directory is always servable. */
  lemma {:induction false} BuildTreeServable(path: Path, node: Node, reg: Registry, next: nat)
    requires Fresh(reg, next) && WellNamed(node) && node.Directory?
    ensures var b := BuildTree(path, node, reg, next).value;
      ServableIn(b.registry, next, b.next)
    decreases node, 1
  {
    BuildEntriesServable(path, node.entries, reg, next + 1);
    FolderIdUnregistered(path, node.entries, reg, next);
    var w := BuildEntries(path, node.entries, reg, next + 1);
    ServableExtend(w.registry, next, w.next);
  }

  lemma {:induction false} BuildEntryServable(dir: Path, e: Entry, reg: Registry, next: nat)
    requires Fresh(reg, next) && e.name != "" && '/' !in e.name && WellNamed(e.node)
    requires BuildEntry(dir, e, reg, next).Some?
    ensures var b := BuildEntry(dir, e, reg, next).value;
      ServableIn(b.registry, next, b.next)
    decreases e, 2
  {
    if e.node.Directory? {
      BuildTreeServable(Join(dir, e.name), e.node, reg, next);
    } else {
      var b := BuildEntry(dir, e, reg, next).value;
      assert e.node.RegularFile? && IsImageFile(e.name);
      assert b.registry == reg[next := Join(dir, e.name)] && b.next == next + 1;
      JoinedImageName(dir, e.name);
    }
  }

  lemma {:induction false} BuildEntriesServable(dir: Path, es: seq<Entry>, reg: Registry, next: nat)
    requires Fresh(reg, next) && WellNamedEntries(es)
    ensures var w := BuildEntries(dir, es, reg, next);
      ServableIn(w.registry, next, w.next)
    decreases es, 0
  {
    if es != [] {
      var e := es[0];
      match BuildEntry(dir, e, reg, next)
      case None =>
        BuildEntriesServable(dir, es[1..], reg, next);
      case Some(b) =>
        BuildEntryNumbering(dir, e, reg, next);
        BuildEntryServable(dir, e, reg, next);
        BuildEntriesNumbering(dir, es[1..], b.registry, b.next);
        BuildEntriesServable(dir, es[1..], b.registry, b.next);
        var rest := BuildEntries(dir, es[1..], b.registry, b.next);
        ServableCompose(b.registry, rest.registry, next, b.next, rest.next);
    }
  }

  /** The image count of a built tree is the number of image files the walk
      reaches. */
  lemma {:induction false} BuildTreeCount(path: Path, node: Node, reg: Registry, next: nat)
    requires BuildTree(path, node, reg, next).Some?
    ensures CountImages(BuildTree(path, node, reg, next).value.item) == ReachableImages(node)
    decreases node, 1
  {
    if node.Directory? {
      BuildEntriesCount(path, node.entries, reg, next + 1);
    }
  }

  lemma {:induction false} BuildEntriesCount(dir: Path, es: seq<Entry>, reg: Registry, next: nat)
    ensures CountAll(BuildEntries(dir, es, reg, next).items) == ReachableInEntries(es)
    decreases es, 0
  {
    if es != [] {
      var e := es[0];
      match BuildEntry(dir, e, reg, next)
      case None =>
        BuildEntriesCount(dir, es[1..], reg, next);
      case Some(b) =>
        BuildEntriesCount(dir, es[1..], b.registry, b.next);
        var rest := BuildEntries(dir, es[1..], b.registry, b.next);
        CountAllCons(b.item, rest.items);
        if e.node.Directory? {
          BuildTreeCount(Join(dir, e.name), e.node, reg, next);
        }
    }
  }
}

=== FILE: wrappers.dfy ===
/** The optional-value datatype used wherever the source returns `null`,
    `undefined` or a value that may be absent. */
module Wrappers {

  datatype Option<+T> = None | Some(value: T)
}
